=== FILE: README.md ===
# acona storage core in Dafny

acona is a storage abstraction written in Go. Every backend implements one
`Store` contract: `PutObject`, `GetObject`, `Examine`, `ListTree`, `Remove`,
`Rename`, plus `Name` and `Root`. Every backend answers with `Object`
descriptors, which carry checksum, identity, directory flag, modification
time, MIME type, path, size and an optional payload. Two backends form the
core modelled here:

- **root** is a composite store. It holds an ordered list of child stores
  and addresses them through one namespace. The first segment of a
  normalised path picks the child by name, and only the second segment is
  handed to that child. Objects coming back are decorated with the child's
  name as a path prefix. Listing the exact empty path lists the children's
  own roots. A rename across two children is refused.
- **local** is a leaf store on the host filesystem. Virtual paths are joined
  under a root directory. Uploads are staged in a temporary file, optionally
  checked against a client checksum, and then renamed into place.

The model is functional. A store's operations are pure functions of the
store's state; mutating ones return the outcome and the next state.

| file | module | contents |
|---|---|---|
| `results.dfy` | `Results` | `Option` and `Result` |
| `strings.dfy` | `Strings` | `strings.TrimSpace`, `strings.Trim(_, "/")`, `strings.Split`/`Join`, `path.Ext`, `filepath.Base` over `seq<char>` |
| `filesystem.dfy` | `FileSystem` | an abstract filesystem as an ordered list of entries; `os.Stat`, `os.Open`, `Readdir`, `os.RemoveAll`, `os.Rename` with Go's error shapes |
| `acona.dfy` | `Acona` | sentinel errors, wrapping, the `Object` variants and their accessors, the `Store` contract as a record of operations |
| `root.dfy` | `Root` | path resolution and the composite store |
| `local.dfy` | `Local` | the local store, as written and as evidently intended |
| `composition.dfy` | `Composition` | a composite whose children are local stores |

Some primitives are not modelled and become parameters of the model:
`acona.SecureJoin`, `filepath.Join`, `os.TempDir()`, the name and clock of
`ioutil.TempFile`, `mime.TypeByExtension`, and the checksum helpers
`HashTypeFromString`, `HashValueFromString` and `HashStream`. They are
fields of `Local.Platform`, or the `join`/`typeByExtension` arguments of the
object accessors. A root store is generic over its children's shared state
`S`.

`getStoreFromPath` forwards `tokens[1]` alone, so `a/b/c` reaches child `a`
as `b` (`Root.Forwarded`, `Root.TailIsDropped`).

The filesystem is a list of entries. `FileSystem.Valid` states the shape
every real filesystem has: no path is listed twice, no entry is the root,
and every entry's parent is a directory. Each mutating operation is proved
to keep it (`Local.OperationsKeepValid`). Properties that rely on it, such
as a renamed source being gone afterwards, take it as a precondition.

## Model

| member | source | states |
|---|---|---|
| Strings.LeadingDrop | root/root.go:37 | Every rune before the count is trimmable, and the rune at the count, if any, is not. So the count is the length of the longest trimmable prefix. |
| Strings.TrailingDrop | root/root.go:37 | Every rune in the last `count` positions is trimmable, and the rune just before them, if any, is not. |
| Strings.IndexOf | root/root.go:37 | There is no position exactly when the rune does not occur. A reported position holds the rune, and no earlier position does. |
| Strings.TrimBoth | root/root.go:37 | The trimmed string is never longer, its ends are not trimmable, and it is empty exactly when every rune was trimmable. An already-trimmed string is unchanged. |
| Strings.TrimBothIsMiddle | root/root.go:37 | A non-empty trim result is exactly the middle of the input, between its longest trimmable prefix and its longest trimmable suffix. |
| Strings.Split | root/root.go:37 | A split always yields at least one part, and no part contains the separator. |
| Strings.JoinOfSplit | root/root.go:37 | Joining the parts of a split gives back the original string. |
| Strings.SplitOfJoin | root/root.go:37 | Splitting a join of separator-free parts gives back the parts. |
| Strings.Ext | local/local.go:28 | The extension is a suffix of the path. It starts with the last dot of the last element, and it is empty exactly when that element has no dot. |
| Strings.Base | local/local.go:142 | The base name is never empty, and it is "/" or free of separators. |
| Strings.BaseIsLastElement | local/local.go:142 | The empty path gives ".". A path of only slashes gives "/". Otherwise, once trailing slashes are dropped, the result is the separator-free suffix after the last remaining slash. |
| Strings.BaseOfName | local/local.go:142 | A directory entry's name, which has no separator, is its own base name. |
| FileSystem.Stat | local/local.go:105 | Stat succeeds exactly when the path exists, and the root "" always exists, as a directory. A failure is a path error with the errno of the missing path. The directory flag matches the node. |
| FileSystem.Open | local/local.go:93 | Open succeeds exactly when the path exists, the root included. A failure is an "open" path error. |
| FileSystem.LookupAgreesWithIsDirAt | local/local.go:105-108 | When no entry is listed for the root, a path is a directory for the directory checks of `os.Rename` and the exclusive create exactly when `os.Stat` finds a directory there. The root reads the same way everywhere. |
| FileSystem.Readdir | local/local.go:135 | One entry per direct child, in read order. Each entry is named by the child's last element, which is non-empty and separator-free. |
| FileSystem.ChildrenComplete | local/local.go:135 | Every entry directly under the directory with a non-empty last element is among the children a directory read reports. |
| FileSystem.RemoveAll | local/local.go:151 | It fails exactly when the path is non-empty and either ends in "." or is missing under a file. On success, exactly the tree at the path is gone. On failure, nothing changes. |
| FileSystem.Rename | local/local.go:81 | It succeeds exactly when the source exists, the target is not a directory, the target's parent is a directory, and a directory source has an absent target outside its own tree. Every failure is a link error and changes nothing. For a missing source, the error is the source's missing-path errno unless the source's directory exists and the target's directory does not. In that case the target's directory is resolved first and its errno is reported. |
| FileSystem.BlockedTargetBeforeMissingSource | local/local.go:160 | A missing source whose target lies under a file fails with `ENOTDIR`, because the target's directory is resolved before the source is looked up. |
| FileSystem.RenameMoves | local/local.go:160 | After a successful rename, every path under the target holds what the corresponding path under the source held. Paths outside both trees are untouched. |
| FileSystem.CreateKeepsValid | local/local.go:176 | Creating a fresh file in an existing directory keeps the filesystem valid. |
| FileSystem.RemoveAllKeepsValid | local/local.go:151 | `os.RemoveAll` keeps the filesystem valid. |
| FileSystem.RenameKeepsValid | local/local.go:160 | A successful `os.Rename` keeps the filesystem valid. |
| FileSystem.RenameVacatesSource | local/local.go:160 | On a valid filesystem, after a successful rename onto a different path, nothing is left at the source. |
| Acona.DecoratedObjectKeepsMetadata | root/root.go:15-22 | However deeply decorators nest, the object reports the innermost object's checksum, id, directory flag, time, MIME type, size and payload. Its path is the innermost path with every prefix joined in front, outermost first. |
| Acona.DecoratorForwards | root/root.go:15-22 | One decorator layer forwards every accessor unchanged except the path, which gets the prefix joined in front. |
| Root.Normalize | root/root.go:37 | The normalised path is never longer than the input and neither starts nor ends with a slash. |
| Root.SpaceInsideSlashesSurvives | root/root.go:37 | White space is trimmed before slashes: for a string that neither starts nor ends with a slash, surrounding it with one slash on each side normalises back to the string, white space at its ends included. |
| Root.Tokens | root/root.go:37 | The normalised path always has at least one segment, and no segment contains a slash. |
| Root.Forwarded | root/root.go:41-44 | The path handed to the child is a single segment: it never contains a slash. |
| Root.FirstNamed | root/root.go:45-50 | Finds the first child with the given name, or reports that no child has it. |
| Root.Resolve | root/root.go:36-51 | Resolution succeeds exactly when some child is named by the first segment. It then picks the first such child and forwards the second segment. Otherwise it fails with object-not-found. |
| Root.RouteIsUnique | root/root.go:45-49 | At most one child is the route of a path. |
| Root.LaterDuplicateIsShadowed | root/root.go:45-49 | A child whose name repeats an earlier child's is never routed to. |
| Root.ForwardsSecondSegmentOnly | root/root.go:37-44 | For a path that normalises to the segments `segs`, the tokens are `segs` and the child receives `segs[1]` or "". |
| Root.NormalizeClean | root/root.go:37 | A path without surrounding white space or slashes is left as it is by normalisation. |
| Root.BlankPathIsEmptySegment | root/root.go:37 | A path of only white space, or of only slashes, names the segment "". |
| Root.TwoSegments | root/root.go:37-44 | "a/b" made of clean segments routes by `a` and forwards `b`. |
| Root.LongerPath | root/root.go:37-44 | "a/b/tail" routes by `a` and forwards `b` alone. |
| Root.OnlyTwoSegmentsMatter | root/root.go:41-47 | Paths that agree on their first two segments give identical results for put, get, examine, remove and child listing. |
| Root.TailIsDropped | root/root.go:41-44 | Every operation on "a/b/tail" gives the same result as on "a/b". |
| Root.NewObject | root/root.go:24-29 | The decorated object's path is the prefix joined onto the wrapped path under any join. The layer adds the prefix in front of the wrapped object's prefixes and keeps the innermost object. |
| Root.PutObject | root/root.go:59-65 | An unroutable path fails with object-not-found and leaves the state alone. Otherwise the outcome and next state are the routed child's put of the forwarded path. |
| Root.GetObject | root/root.go:67-73 | An unroutable path fails with object-not-found. Otherwise the result is the routed child's get of the forwarded path. |
| Root.Remove | root/root.go:122-128 | An unroutable path fails with object-not-found and leaves the state alone. Otherwise the child's removal of the forwarded path. |
| Root.Examine | root/root.go:75-85 | Succeeds exactly when the routed child's examine does. The object is the child's, decorated with the child's name. A child error is wrapped as "can't examine". |
| Root.ExamineMatchesChild | root/root.go:75-85 | The root's examine agrees with the child's on success, on the underlying cause of a failure, and on every accessor except the path. The path is the child's name joined in front. |
| Root.ListRoot | root/root.go:87-97 | Succeeds exactly when every child's root examines. It then yields one decorated object per child, in child order. A failure carries the first failing child's error, wrapped. |
| Root.ListChild | root/root.go:107-119 | Succeeds exactly when the routed child's listing does. Same length, each entry decorated with the child's name. A failure is wrapped as "can't list tree - " plus the forwarded path. |
| Root.PrefixAll | root/root.go:115-118 | Every listed object is decorated, in order, with nothing added or lost. |
| Root.ListTree | root/root.go:99-120 | Only the exact empty path lists the children's roots. Every other path is a routed child listing. |
| Root.RootListingNeedsEmptyPath | root/root.go:99-110 | A path of only white space or only slashes is routed, not a root listing. It fails when no child is named "". |
| Root.ListErrorKeepsCause | root/root.go:111-114 | A failed child listing fails at the root with the same underlying cause. |
| Root.SameNameSameChild | root/root.go:139-141 | Two routed paths reach children of the same name exactly when they reach the same child. Comparing names is comparing routes. |
| Root.Rename | root/root.go:130-143 | The source is resolved, then the destination. Either failing gives object-not-found. Paths on two different children are refused with can't-move, state unchanged. Otherwise the child renames the forwarded paths. |
| Root.CrossChildRenameRefused | root/root.go:139-141 | When both paths resolve and their first segments differ, the rename is refused and the state is unchanged. |
| Root.AsStore | root/root.go:53-57 | A root store is itself a store with the same name and root, so composites nest. Each of its six operations is the corresponding root one. |
| Local.NewStore | local/local.go:41-54 | As written: the root directory is the store's root joined under the configured one. An empty temp directory falls back to the system's. The checksum flag is always off. |
| Local.NewStoreChecked | local/local.go:41-54 | Corrected: as above, with the checksum flag taken from the configuration. |
| Local.LocalPath | local/local.go:171-173 | A virtual path becomes physical only through the confining join under the store's root directory. The join itself is a platform parameter. |
| Local.StagingPath | local/local.go:176 | The staging file is the platform's fresh name joined under the store's temp directory. |
| Local.SaveToTempFile | local/local.go:175-185 | Staging succeeds exactly when the staging path's directory exists, the path is free and the reader is readable. The staging file then holds the reader's bytes and the reader is drained. Only the staging path ever changes. When the file is created but the copy fails, the copy's error is returned and an empty staging file stays behind. |
| Local.SaveKeepsValid | local/local.go:175-185 | Staging, whether it succeeds or leaves a partial file behind, keeps the filesystem valid. |
| Local.VerifyHash | local/local.go:65-78 | The gate passes exactly when checking is off, no known kind is named, or the computed value of that kind equals the client's. It refuses with a mismatch exactly when hashing succeeds with a different value. A hashing failure is wrapped as "can't compute hash". |
| Local.Commit | local/local.go:80-86 | The commit succeeds exactly when the rename does. It then puts the staged node at the target and leaves other paths alone. A failure changes nothing. It reads as object-not-found exactly when the rename's error is a not-exist error, and is wrapped otherwise. |
| Local.PutObject | local/local.go:59-89 | As written: a staging failure is wrapped as "can't save to temp file". When staging succeeds and the gate passes on the drained stream, the outcome is the commit of the staging file. Success stores the reader's bytes at the target, stamped with the clock, and changes nothing outside the target and staging trees. Failure changes nothing but the staging path. |
| Local.PutObjectVerified | local/local.go:59-89 | Corrected: as above, including the frame and the commit once the gate passes, with the gate run on the uploaded content. Success implies the gate passed on that content. |
| Local.GetObject | local/local.go:91-101 | Opening succeeds exactly when the path exists, the root directory included, and a file opens to its bytes. A missing path reads as object-not-found unless a file blocks its ancestry; other failures are wrapped. |
| Local.Examine | local/local.go:103-114 | Succeeds exactly when the path exists, the root directory included. The object's path and id are the caller's virtual path, its checksum is empty and its directory flag is the node's. Failures are classified as in GetObject. |
| Local.ListTree | local/local.go:116-147 | A missing path reads as object-not-found unless a file blocks its ancestry, which is wrapped as "can't stat". A file fails with is-a-file. A directory, the root included, yields one object per entry, in read order, at the listed path joined with the entry's name. |
| Local.ListTreeListsEveryChild | local/local.go:134-144 | A successful listing misses no entry: every entry directly inside the listed directory appears, with its metadata, at the listed path joined with its name. |
| Local.ChildObject | local/local.go:140-144 | A listed entry is addressed by the listed path joined with its own name. |
| Local.Remove | local/local.go:149-155 | It fails exactly when the physical path is non-empty and either ends in "." or is missing under a file. On success, exactly the physical tree is gone. A failure changes nothing and is wrapped as "can't remove". |
| Local.Rename | local/local.go:157-169 | It succeeds exactly when `os.Rename` would: the source exists, the destination is not a directory, its parent is a directory, and a directory source has an absent destination outside its own tree. Every failure changes nothing and reads as object-not-found or can't-move. A missing source is object-not-found unless a file blocks its ancestry, or unless the destination's directory is blocked by a file when the source's directory exists. On success the destination holds what the source held and the rest is untouched. |
| Local.MissingSourceUnderFileIsCantMove | local/local.go:160-167 | Renaming a missing source to a path under a file is refused with can't-move, not object-not-found. |
| Local.PutThenGet | local/local.go:59-101 | After a successful upload, the path reads back the written bytes and examines as a non-directory at the same virtual path. |
| Local.RemoveThenExamine | local/local.go:149-155 | After a successful removal, the path neither examines nor opens. |
| Local.RenameThenGet | local/local.go:157-169 | After a successful rename, the destination examines as the source did, and a renamed file reads back its bytes. |
| Local.OperationsKeepValid | local/local.go:59-169 | Both uploads, removal and rename keep a valid filesystem valid. |
| Local.RenameClearsSource | local/local.go:157-169 | On a valid filesystem, after a successful rename onto a different physical path, the source neither examines nor opens. |
| Local.PutClearsStaging | local/local.go:59-89 | On a valid filesystem, after a successful upload the staging file is gone, renamed onto the target. |
| Local.UncheckedPutCommits | local/local.go:65-86 | With checking off or no known kind named, a staged upload goes straight to the rename, in both versions. A missing target directory reads as object-not-found. |
| Local.CheckedPutRejectsMismatch | local/local.go:65-76 | With the corrected store and upload, a wrong checksum of a known kind is refused and the target keeps its old content. |
| Local.AsWrittenVerdictIgnoresContent | local/local.go:60-76 | As written, whether an upload is refused for its checksum does not depend on the bytes uploaded. |
| Local.ConfiguredCheckIsIgnored | local/local.go:41-54 | As written, a store configured to check accepts an upload with a wrong checksum. The corrected pair refuses it. |
| Local.DrainedStreamRejectsCorrectChecksum | local/local.go:60-76 | As written, a correct checksum is refused because the hash sees the drained stream. The corrected upload accepts it. |
| Local.AsStore | local/local.go:33-57 | The local store behind the `Store` contract has the same name and root. Each operation is the corresponding local one, with the corrected upload. |
| Composition.PutThenGet | root/root.go:59-73 | Through a composite of local stores, a successful upload reads back its bytes at the same path. It examines as a non-directory whose id is the forwarded path. |
| Composition.RootListingOfLocalStores | root/root.go:87-97 | When every local child's directory exists, the composite's root listing has one directory per child, in order. Each entry has an empty id and is addressed by the child's name. |

## Left out

- Streams are modelled as byte sequences. Closing readers and files (`defer fd.Close()`) and partial reads are not modelled.
- Concurrency and the non-atomicity of staging followed by rename are not modelled.
- FileSystem.Lookup: the root "" is never listed as an entry, so its own metadata is not tracked. `os.Stat` of the root reports a directory with time and size zero.
- Renaming the root itself fails as a missing source (`ENOENT`), where Linux reports `EBUSY`.
- Permissions, ownership, cross-device renames (`EXDEV`), symbolic links and disk-full errors are not modelled. The errno set covers what the modelled calls can report without them.
- Physical paths are compared as plain strings, and the model assumes the joins return clean paths: no `.` or `..` elements and no repeated or trailing `/`. The system resolves `d/`, `a//b` or `a/./b` to the clean path, but the model finds nothing there. So, over an unclean join, `Stat` of `d/` fails where the system succeeds, and renaming `d` onto `d/` is refused where the system does nothing.
- `acona.SecureJoin` and `filepath.Join` are opaque parameters. The model therefore proves nothing about confinement under the root directory, nor that an object's `Path()` can be fed back to address it.
- `Local.ListTree` opens the directory again after `Stat` and reads it with `Readdir`. Both can fail in the real system between the two calls, or on an unreadable directory. In the model they cannot, so those two error branches are not represented.
- `mime.TypeByExtension` and the modification clock are opaque parameters. Times are plain integers, not truncated to Unix seconds.
- The `len(tokens) == 0` branch of `getStoreFromPath` is not modelled. `strings.Split` never returns an empty slice, so that branch is dead code (`Root.Tokens` proves at least one segment).
- `Local.Rename`'s final "can't move" wrap is modelled but unreachable. Every `os.Rename` failure is an `*os.LinkError`.
- The sentinel errors are modelled by kind (`Acona.Kind`), not by their message texts, and the text `errors.Wrap` builds from a message and a cause is not modelled. No operation here inspects an error's text.
- The checksum helpers are opaque. Their behaviour, including how a client checksum string is parsed, is whatever `Local.Platform` supplies.
- `Name()` and `Root()` are record fields, not operations.
- The root store's `NewStore` never fails; it is the `RootStore` constructor.
- Local.SaveToTempFile: `ioutil.TempFile` retries with fresh random names while the name it drew is taken. The model makes one attempt with the name `Local.Platform` supplies, so a taken name fails with `EEXIST` where the real call would try another.
- Go strings are byte sequences that need not be valid UTF-8. The model treats them as `seq<char>`, one char per rune, so invalid UTF-8 and its decoding are not modelled.

## Findings

| source | as written | input that shows it | evidently intended | confidence | as-written member | corrected member |
|---|---|---|---|---|---|---|
| local/local.go:41-54 | `NewStore` never copies `Config.CheckInputHash`, so every store has checking off | `Config{CheckInputHash: true}` and an upload with a wrong "md5" checksum: accepted | the store checks when configured to | high, not executed | Local.NewStore, Local.ConfiguredCheckIsIgnored | Local.NewStoreChecked, Local.CheckedPutRejectsMismatch |
| local/local.go:60-76 | `HashStream(reader)` runs after `saveToTempFile` has drained `reader`, so it hashes no bytes. Through `NewStore` it cannot be reached, because the first finding leaves checking off; it shows once that is corrected | checking on, content `[1]`, with its correct checksum: refused with a mismatch | the checksum is computed over the uploaded content | high, not executed | Local.PutObject, Local.DrainedStreamRejectsCorrectChecksum, Local.AsWrittenVerdictIgnoresContent | Local.PutObjectVerified, Local.CheckedPutRejectsMismatch |

=== FILE: acona.dfy ===
/** The storage contract every backend implements: the shared error
    vocabulary, the `Object` metadata descriptor and the `Store` capability
    set. */
module Acona {
  import opened Results
  import opened Strings
  import opened FileSystem

  /** The package-level sentinel errors, one constructor each. */
  datatype Kind =
    | CantPurge | CantCopy | CantMove | CantDirMove | DirExists | CantSetModTime
    | DirNotFound | ObjectNotFound | LevelNotSupported | ListAborted | ListOnlyRoot
    | IsFile | NotDeleting | CantMoveOverlapping | HashesNotMatch

  /** An error value: a sentinel, a message wrapped around a cause
      (`errors.Wrap`), or a raw operating-system error. */
  datatype Error = Sentinel(kind: Kind) | Wrapped(msg: string, cause: Error) | Os(os: OsError)

  /** `errors.Cause`: the innermost error under every wrapping. */
  function Cause(e: Error): (r: Error)
    ensures !r.Wrapped?
  {
    match e
    case Wrapped(_, c) => Cause(c)
    case _ => e
  }

  /** A checksum algorithm named by a client checksum string, or none. */
  datatype HashType = HashNone | HashKind(name: string)

  /** Go's map lookup: a missing key reads as the zero value "". */
  function HashOf(computed: map<HashType, string>, t: HashType): string {
    if t in computed then computed[t] else ""
  }

  /** The backend-defined payload of `Optional()`; the backends here have none. */
  datatype Payload = Nil | Opaque(tag: string)

  /** The accessor values of an object from a backend outside this model. */
  datatype Descriptor = Descriptor(
    checksum: string, id: string, isDir: bool, modTime: int,
    mimeType: string, path: string, size: int, optional: Payload)

  /** An `Object` is one of the implementations of the interface: the local
      store's file-info snapshot, the root store's prefixing decorator, or a
      descriptor from some other backend. */
  datatype Object =
    | LocalObject(info: FileInfo, path: string)
    | RootObject(prefix: string, wrapped: Object)
    | Foreign(d: Descriptor)
  {
    function Checksum(): string
      decreases this
    {
      match this
      case LocalObject(_, _) => ""
      case RootObject(_, w) => w.Checksum()
      case Foreign(d) => d.checksum
    }

    function ID(): string
      decreases this
    {
      match this
      case LocalObject(_, p) => p
      case RootObject(_, w) => w.ID()
      case Foreign(d) => d.id
    }

    function IsDir(): bool
      decreases this
    {
      match this
      case LocalObject(fi, _) => fi.isDir
      case RootObject(_, w) => w.IsDir()
      case Foreign(d) => d.isDir
    }

    function ModTime(): int
      decreases this
    {
      match this
      case LocalObject(fi, _) => fi.modTime
      case RootObject(_, w) => w.ModTime()
      case Foreign(d) => d.modTime
    }

    /** `typeByExtension` stands for `mime.TypeByExtension`. */
    function MimeType(typeByExtension: string -> string): string
      decreases this
    {
      match this
      case LocalObject(_, p) => typeByExtension(Ext(p))
      case RootObject(_, w) => w.MimeType(typeByExtension)
      case Foreign(d) => d.mimeType
    }

    /** `join` stands for the confining path join the root store uses. */
    function Path(join: (string, string) -> string): string
      decreases this
    {
      match this
      case LocalObject(_, p) => p
      case RootObject(prefix, w) => join(prefix, w.Path(join))
      case Foreign(d) => d.path
    }

    function Size(): int
      decreases this
    {
      match this
      case LocalObject(fi, _) => fi.size
      case RootObject(_, w) => w.Size()
      case Foreign(d) => d.size
    }

    function Optional(): Payload
      decreases this
    {
      match this
      case LocalObject(_, _) => Nil
      case RootObject(_, w) => w.Optional()
      case Foreign(d) => d.optional
    }
  }

  /** The object underneath every layer of prefixing. */
  function Innermost(o: Object): (r: Object)
    ensures !r.RootObject?
  {
    if o.RootObject? then Innermost(o.wrapped) else o
  }

  /** The prefixes a nest of decorators adds, outermost first. */
  function Prefixes(o: Object): seq<string> {
    if o.RootObject? then [o.prefix] + Prefixes(o.wrapped) else []
  }

  /** Joins `prefixes`, outermost first, in front of `p`. */
  function JoinAll(prefixes: seq<string>, p: string, join: (string, string) -> string): string {
    if prefixes == [] then p else join(prefixes[0], JoinAll(prefixes[1..], p, join))
  }

  /** One layer of decoration changes nothing but the path. */
  lemma DecoratorForwards(prefix: string, o: Object, join: (string, string) -> string, typeByExtension: string -> string)
    ensures var r := RootObject(prefix, o);
      && r.Checksum() == o.Checksum() && r.ID() == o.ID() && r.IsDir() == o.IsDir()
      && r.ModTime() == o.ModTime() && r.MimeType(typeByExtension) == o.MimeType(typeByExtension)
      && r.Size() == o.Size() && r.Optional() == o.Optional()
      && r.Path(join) == join(prefix, o.Path(join))
  {
  }

  /** However deeply composite stores nest, a decorated object reports the
      metadata of the object it was made from, and its path is that object's
      path with every layer's prefix joined in front, outermost first. */
  lemma {:induction false} DecoratedObjectKeepsMetadata(o: Object, join: (string, string) -> string, typeByExtension: string -> string)
    ensures var b := Innermost(o);
      && o.Checksum() == b.Checksum() && o.ID() == b.ID() && o.IsDir() == b.IsDir()
      && o.ModTime() == b.ModTime() && o.MimeType(typeByExtension) == b.MimeType(typeByExtension)
      && o.Size() == b.Size() && o.Optional() == b.Optional()
    ensures o.Path(join) == JoinAll(Prefixes(o), Innermost(o).Path(join), join)
  {
    if o.RootObject? {
      DecoratedObjectKeepsMetadata(o.wrapped, join, typeByExtension);
    }
  }

  /** The capability set of a backend whose state is `S`. Each operation is a
      function of the state: mutating ones return the outcome and the next
      state, reading ones only the outcome. */
  datatype Store<!S> = Store(
    name: string,
    root: string,
    putObject: (S, Stream, string, string) -> (Option<Error>, S),
    getObject: (S, string) -> Result<Stream, Error>,
    examine: (S, string) -> Result<Object, Error>,
    listTree: (S, string) -> Result<seq<Object>, Error>,
    remove: (S, string) -> (Option<Error>, S),
    rename: (S, string, string) -> (Option<Error>, S))
}

=== FILE: composition.dfy ===
/** The deployment the two stores are built for: a composite whose
    children are local directory stores sharing one file system. */
module Composition {
  import opened Results
  import opened FileSystem
  import opened Acona
  import L = Local
  import R = Root

  /** The local stores as children of a composite, in the given order. */
  function LocalChildren(locals: seq<L.LocalStore>, p: L.Platform): (r: seq<Store<FS>>)
    ensures |r| == |locals|
    ensures forall i :: 0 <= i < |locals| ==> r[i] == L.AsStore(locals[i], p)
  {
    seq(|locals|, i requires 0 <= i < |locals| => L.AsStore(locals[i], p))
  }

  /** An object stored through the composite can be read back through it:
      the same path then opens to the bytes that were written, and examines
      as a file whose identity is the path the child was handed. */
  lemma PutThenGet(locals: seq<L.LocalStore>, p: L.Platform, name: string, root: string, fs: FS, reader: Stream, path: string, inputHash: string)
    requires R.PutObject(R.RootStore(name, root, LocalChildren(locals, p)), fs, reader, path, inputHash).0.None?
    ensures var rs := R.RootStore(name, root, LocalChildren(locals, p));
      var after := R.PutObject(rs, fs, reader, path, inputHash).1;
      && reader.Content?
      && R.GetObject(rs, after, path) == Ok(reader)
      && R.Examine(rs, after, path).Ok?
      && !R.Examine(rs, after, path).value.IsDir()
      && R.Examine(rs, after, path).value.ID() == R.Forwarded(path)
  {
    var rs := R.RootStore(name, root, LocalChildren(locals, p));
    assert R.Routable(rs.stores, path);
    var i := R.ChildOf(rs.stores, path);
    var s := locals[i];
    var rest := R.Forwarded(path);
    var put := L.PutObjectVerified(s, p, fs, reader, rest, inputHash);
    assert R.PutObject(rs, fs, reader, path, inputHash) == put;
    var after := put.1;
    assert Find(after, L.LocalPath(s, p, rest)) == Some(File(reader.remaining, p.clock(fs)));
    assert R.GetObject(rs, after, path) == L.GetObject(s, p, after, rest);
    assert R.Examine(rs, after, path).value == RootObject(s.name, L.Examine(s, p, after, rest).value);
  }

  /** Listing the composite's root over local children whose directories
      all exist yields one directory object per child, in child order, each
      named by the child and empty below it. */
  lemma RootListingOfLocalStores(locals: seq<L.LocalStore>, p: L.Platform, name: string, root: string, fs: FS, join: (string, string) -> string)
    requires forall i :: 0 <= i < |locals| ==> Lookup(fs, L.LocalPath(locals[i], p, "")).Some? && Lookup(fs, L.LocalPath(locals[i], p, "")).value.Dir?
    ensures var r := R.ListTree(R.RootStore(name, root, LocalChildren(locals, p)), fs, "");
      && r.Ok?
      && |r.value| == |locals|
      && forall i :: 0 <= i < |locals| ==>
        && r.value[i].IsDir()
        && r.value[i].ID() == ""
        && r.value[i].Path(join) == join(locals[i].name, "")
  {
    var rs := R.RootStore(name, root, LocalChildren(locals, p));
    forall i | 0 <= i < |locals|
      ensures rs.stores[i].examine(fs, "") == L.Examine(locals[i], p, fs, "")
      ensures L.Examine(locals[i], p, fs, "").Ok?
    {
    }
  }
}

=== FILE: filesystem.dfy ===
/** An abstract host filesystem and the handful of `os` calls the local store
    makes on it. Physical paths are plain strings with `/` as separator; the
    filesystem is a list of entries in the order a directory read reports them,
    so that `Readdir` has an order to follow. Paths are taken to be clean:
    no `.` or `..` elements and no repeated or trailing `/`. */
module FileSystem {
  import opened Results
  import opened Strings

  newtype byte = b: int | 0 <= b < 256

  /** A file holds its bytes; modification times and a directory's size are
      opaque metadata carried along. */
  datatype Node = File(data: seq<byte>, modTime: int) | Dir(modTime: int, size: int)

  datatype Entry = Entry(path: string, node: Node)

  type FS = seq<Entry>

  /** The `os.FileInfo` fields the stores read. */
  datatype FileInfo = FileInfo(name: string, isDir: bool, modTime: int, size: int)

  /** The system error numbers the operations below can report. */
  datatype Errno = ENOENT | ENOTDIR | EEXIST | EINVAL | EISDIR

  /** Go's `*os.PathError` and `*os.LinkError`. */
  datatype OsError =
    | PathError(op: string, path: string, errno: Errno)
    | LinkError(op: string, oldPath: string, newPath: string, errno: Errno)

  /** `os.IsNotExist`: both error shapes are unwrapped to their errno. */
  predicate IsNotExist(e: OsError) {
    e.errno == ENOENT
  }

  /** A byte stream: either the bytes still to be read, or a reader whose next
      read fails (an opened directory, a broken connection). */
  datatype Stream = Content(remaining: seq<byte>) | Failing(cause: OsError)

  /** `k` is `d` itself or lies underneath it. */
  predicate InTree(k: string, d: string) {
    k == d || (|k| > |d| && k[..|d|] == d && k[|d|] == '/')
  }

  /** `k` lies strictly underneath `d`. */
  predicate Below(k: string, d: string) {
    k != d && InTree(k, d)
  }

  /** The directory part of a physical path; "" stands for the root. */
  function ParentOf(k: string): string {
    var i := AfterLastSlash(k);
    if i == 0 then "" else k[..i - 1]
  }

  /** The last element of a physical path. */
  function Leaf(k: string): (r: string)
    ensures '/' !in r
  {
    k[AfterLastSlash(k)..]
  }

  /** The node stored at `p`: the first entry for that path. */
  function Find(fs: FS, p: string): (r: Option<Node>)
    ensures r.None? <==> forall i :: 0 <= i < |fs| ==> fs[i].path != p
    ensures r.Some? ==> exists i :: 0 <= i < |fs| && fs[i] == Entry(p, r.value)
  {
    if fs == [] then None
    else if fs[0].path == p then Some(fs[0].node)
    else
      var r := Find(fs[1..], p);
      assert r.Some? ==> fs[1..][0] == fs[1];
      r
  }

  /** Some existing file lies on the way to `p`. */
  predicate HasFileAncestor(fs: FS, p: string) {
    exists i :: 0 <= i < |fs| && fs[i].node.File? && Below(p, fs[i].path)
  }

  /** `p` names a directory; the root "" always exists. */
  predicate IsDirAt(fs: FS, p: string) {
    p == "" || (Find(fs, p).Some? && Find(fs, p).value.Dir?)
  }

  /** The root's own metadata is not tracked: it reads as a directory with
      time and size zero. */
  const RootNode: Node := Dir(0, 0)

  /** What the system finds at `p`: the listed entry, or, for the root "",
      which is never listed, a directory. */
  function Lookup(fs: FS, p: string): (r: Option<Node>)
    ensures r.Some? <==> p == "" || Find(fs, p).Some?
    ensures Find(fs, p).Some? ==> r == Find(fs, p)
  {
    if Find(fs, p).Some? then Find(fs, p) else if p == "" then Some(RootNode) else None
  }

  /** On a filesystem that lists no root entry, a path is a directory for
      `IsDirAt` exactly when looking it up finds a directory: the root is
      one reading everywhere. */
  lemma LookupAgreesWithIsDirAt(fs: FS, p: string)
    requires Find(fs, "").None?
    ensures IsDirAt(fs, p) <==> Lookup(fs, p).Some? && Lookup(fs, p).value.Dir?
  {
  }

  /** Why a lookup of the missing path `p` fails. */
  function MissingErrno(fs: FS, p: string): Errno {
    if HasFileAncestor(fs, p) then ENOTDIR else ENOENT
  }

  /** Why `p` cannot serve as a directory. */
  function NotDirErrno(fs: FS, p: string): Errno {
    if Find(fs, p).Some? then ENOTDIR else MissingErrno(fs, p)
  }

  function InfoOf(name: string, n: Node): FileInfo {
    match n
    case File(data, t) => FileInfo(name, false, t, |data|)
    case Dir(t, size) => FileInfo(name, true, t, size)
  }

  /** `os.Stat`. */
  function Stat(fs: FS, p: string): (r: Result<FileInfo, OsError>)
    ensures r.Ok? <==> Lookup(fs, p).Some?
    ensures r.Err? ==> r.error == PathError("stat", p, MissingErrno(fs, p))
    ensures r.Ok? ==> r.value.isDir == Lookup(fs, p).value.Dir?
  {
    match Lookup(fs, p)
    case Some(n) => Ok(InfoOf(Base(p), n))
    case None => Err(PathError("stat", p, MissingErrno(fs, p)))
  }

  /** `os.Open`: a file yields its content; a directory opens, but reading
      from it fails. */
  function Open(fs: FS, p: string): (r: Result<Stream, OsError>)
    ensures r.Ok? <==> Lookup(fs, p).Some?
    ensures r.Err? ==> r.error == PathError("open", p, MissingErrno(fs, p))
  {
    match Lookup(fs, p)
    case Some(File(data, _)) => Ok(Content(data))
    case Some(Dir(_, _)) => Ok(Failing(PathError("read", p, EISDIR)))
    case None => Err(PathError("open", p, MissingErrno(fs, p)))
  }

  /** The direct children of `d`, in read order. */
  function Children(fs: FS, d: string): (r: FS)
    ensures |r| <= |fs|
    ensures forall i :: 0 <= i < |r| ==> ParentOf(r[i].path) == d && Leaf(r[i].path) != ""
  {
    if fs == [] then []
    else
      var rest := Children(fs[1..], d);
      if ParentOf(fs[0].path) == d && Leaf(fs[0].path) != "" then [fs[0]] + rest else rest
  }

  /** Nothing is missed: every entry directly under `d` with a non-empty
      last element is among its children. */
  lemma {:induction false} ChildrenComplete(fs: FS, d: string, k: string)
    requires Find(fs, k).Some? && ParentOf(k) == d && Leaf(k) != ""
    ensures exists i :: 0 <= i < |Children(fs, d)| && Children(fs, d)[i] == Entry(k, Find(fs, k).value)
  {
    var cs := Children(fs, d);
    var rest := Children(fs[1..], d);
    var keep := ParentOf(fs[0].path) == d && Leaf(fs[0].path) != "";
    assert cs == if keep then [fs[0]] + rest else rest;
    if fs[0].path == k {
      assert cs[0] == fs[0];
    } else {
      var n := Find(fs, k).value;
      assert Find(fs[1..], k) == Some(n);
      ChildrenComplete(fs[1..], d, k);
      var i :| 0 <= i < |rest| && rest[i] == Entry(k, n);
      var j := if keep then i + 1 else i;
      assert cs[j] == Entry(k, n);
    }
  }

  /** `(*os.File).Readdir(-1)` on the directory `d`: one `FileInfo` per child,
      named by the child's last path element. */
  function Readdir(fs: FS, d: string): (r: seq<FileInfo>)
    ensures |r| == |Children(fs, d)|
    ensures forall i :: 0 <= i < |r| ==>
      var c := Children(fs, d)[i]; r[i] == InfoOf(Leaf(c.path), c.node) && r[i].name != "" && '/' !in r[i].name
  {
    var cs := Children(fs, d);
    seq(|cs|, i requires 0 <= i < |cs| => InfoOf(Leaf(cs[i].path), cs[i].node))
  }

  /** Drops every entry at or below `d`. */
  function RemoveTree(fs: FS, d: string): (r: FS)
    ensures forall k :: Find(r, k) == if InTree(k, d) then None else Find(fs, k)
  {
    if fs == [] then []
    else
      var rest := RemoveTree(fs[1..], d);
      if InTree(fs[0].path, d) then rest else [fs[0]] + rest
  }

  /** A path `os.RemoveAll` refuses outright: "." or one ending in "/.". */
  predicate EndsWithDot(p: string) {
    p == "." || (|p| >= 2 && p[|p| - 2..] == "/.")
  }

  /** `os.RemoveAll`: removes `p` and everything underneath it; a path that
      is already absent is not an error. */
  function RemoveAll(fs: FS, p: string): (r: (Option<OsError>, FS))
    ensures r.0.None? ==> forall k :: Find(r.1, k) == if InTree(k, p) && p != "" then None else Find(fs, k)
    ensures r.0.Some? ==> r.1 == fs
    ensures r.0.Some? <==> p != "" && (EndsWithDot(p) || (Find(fs, p).None? && HasFileAncestor(fs, p)))
  {
    if p == "" then (None, fs)
    else if EndsWithDot(p) then (Some(PathError("RemoveAll", p, EINVAL)), fs)
    else if Find(fs, p).None? && HasFileAncestor(fs, p) then (Some(PathError("unlinkat", p, ENOTDIR)), fs)
    else (None, RemoveTree(fs, p))
  }

  /** Replaces the prefix `source` of a path in its tree by `target`. */
  function Rebase(k: string, source: string, target: string): string
    requires InTree(k, source)
  {
    target + k[|source|..]
  }

  /** Moves the tree at `source` to `target`, dropping whatever was at `target`. */
  function MoveTree(fs: FS, source: string, target: string): (r: FS)
  {
    if fs == [] then []
    else
      var rest := MoveTree(fs[1..], source, target);
      var e := fs[0];
      if InTree(e.path, source) then [Entry(Rebase(e.path, source, target), e.node)] + rest
      else if InTree(e.path, target) then rest
      else [e] + rest
  }

  /** `os.Rename` on a Unix system. Every failure is a `*os.LinkError`: Go
      refuses to replace an existing directory (the root "" among them).
      The system call then resolves the source's directory, then the
      target's directory, and only then looks the source up; it refuses a
      missing source, moving a directory into itself, and replacing a file
      by a directory. */
  function Rename(fs: FS, source: string, target: string): (r: (Option<OsError>, FS))
    ensures r.0.Some? ==> r.0.value.LinkError? && r.1 == fs
    ensures r.0.Some? && IsNotExist(r.0.value) ==> Find(fs, source).None? || !IsDirAt(fs, ParentOf(target))
    ensures Find(fs, source).None? && (IsDirAt(fs, target) || !IsDirAt(fs, ParentOf(source)) || IsDirAt(fs, ParentOf(target))) ==>
      r.0.Some? && r.0.value.errno == MissingErrno(fs, source)
    ensures Find(fs, source).None? && !IsDirAt(fs, target) && IsDirAt(fs, ParentOf(source)) && !IsDirAt(fs, ParentOf(target)) ==>
      r.0.Some? && r.0.value.errno == NotDirErrno(fs, ParentOf(target))
    ensures r.0.None? <==>
      && Find(fs, source).Some?
      && !IsDirAt(fs, target)
      && IsDirAt(fs, ParentOf(target))
      && (Find(fs, source).value.Dir? ==> !InTree(target, source) && Find(fs, target).None?)
  {
    var src := Find(fs, source);
    var dst := Find(fs, target);
    if IsDirAt(fs, target) then
      (Some(LinkError("rename", source, target, if src.None? then MissingErrno(fs, source) else EEXIST)), fs)
    else if src.None? && !IsDirAt(fs, ParentOf(source)) then
      (Some(LinkError("rename", source, target, MissingErrno(fs, source))), fs)
    else if !IsDirAt(fs, ParentOf(target)) then
      (Some(LinkError("rename", source, target, NotDirErrno(fs, ParentOf(target)))), fs)
    else if src.None? then
      (Some(LinkError("rename", source, target, MissingErrno(fs, source))), fs)
    else if src.value.Dir? && InTree(target, source) then
      (Some(LinkError("rename", source, target, EINVAL)), fs)
    else if src.value.Dir? && dst.Some? then
      (Some(LinkError("rename", source, target, ENOTDIR)), fs)
    else
      (None, MoveTree(fs, source, target))
  }

  /** The target's directory is resolved before the source is looked up: a
      missing source whose target lies under a file fails with `ENOTDIR`,
      not as a missing file. */
  lemma BlockedTargetBeforeMissingSource()
    ensures Rename([Entry("f", File([], 0))], "x", "f/y").0 == Some(LinkError("rename", "x", "f/y", ENOTDIR))
  {
    var fs := [Entry("f", File([], 0))];
    assert ParentOf("x") == "" && ParentOf("f/y") == "f";
  }

  /** A path in the tree at `source`, carried over to `target`, lies in the
      tree at `target` with the same relative part; carrying it back gives
      the original path. */
  lemma RebaseInTree(k: string, source: string, target: string)
    requires InTree(k, source)
    ensures InTree(Rebase(k, source, target), target)
    ensures Rebase(k, source, target)[|target|..] == k[|source|..]
    ensures Rebase(Rebase(k, source, target), target, source) == k
  {
  }

  /** What a moved tree holds: a path under `target` holds what the
      corresponding path under `source` held, the rest of the source tree is
      empty, and every other path is as before. */
  lemma {:induction false} MoveTreeFind(fs: FS, source: string, target: string, k: string)
    ensures Find(MoveTree(fs, source, target), k) ==
      if InTree(k, target) then Find(fs, Rebase(k, target, source))
      else if InTree(k, source) then None
      else Find(fs, k)
    decreases |fs|
  {
    if fs != [] {
      MoveTreeFind(fs[1..], source, target, k);
      var e := fs[0];
      if InTree(k, target) {
        RebaseInTree(k, target, source);
      }
      if InTree(e.path, source) {
        RebaseInTree(e.path, source, target);
      }
    }
  }

  /** A successful rename makes the tree at `source` visible under `target`
      and changes nothing outside the two trees. */
  lemma RenameMoves(fs: FS, source: string, target: string)
    requires Rename(fs, source, target).0.None?
    ensures Find(Rename(fs, source, target).1, target) == Find(fs, source)
    ensures forall k :: InTree(k, target) ==> Find(Rename(fs, source, target).1, k) == Find(fs, Rebase(k, target, source))
    ensures forall k :: !InTree(k, source) && !InTree(k, target) ==> Find(Rename(fs, source, target).1, k) == Find(fs, k)
  {
    forall k
      ensures Find(Rename(fs, source, target).1, k) ==
        if InTree(k, target) then Find(fs, Rebase(k, target, source))
        else if InTree(k, source) then None
        else Find(fs, k)
    {
      MoveTreeFind(fs, source, target, k);
    }
    assert Rebase(target, target, source) == source;
  }

  /** Appending a relative part that holds a separator moves the last
      separator by the length of what is in front. */
  lemma {:induction false} AfterLastSlashAppend(a: string, x: string)
    requires '/' in x
    ensures AfterLastSlash(a + x) == |a| + AfterLastSlash(x)
    decreases |x|
  {
    var ax := a + x;
    if x[|x| - 1] != '/' {
      var x' := x[..|x| - 1];
      assert ax[..|ax| - 1] == a + x';
      assert '/' in x' by {
        var i :| 0 <= i < |x| && x[i] == '/';
        assert x'[i] == '/';
      }
      AfterLastSlashAppend(a, x');
    }
  }

  /** The parent of `a + x`, when `x` holds a separator, is `a` followed by
      the parent of `x`. */
  lemma ParentOfAppend(a: string, x: string)
    requires '/' in x
    ensures ParentOf(a + x) == a + ParentOf(x)
  {
    AfterLastSlashAppend(a, x);
    var j := AfterLastSlash(x);
    assert (a + x)[..|a| + j - 1] == a + x[..j - 1];
  }

  /** The parent of a path strictly inside the tree at `d` is still in that tree. */
  lemma ParentInTree(k: string, d: string)
    requires Below(k, d)
    ensures InTree(ParentOf(k), d)
  {
  }

  /** A path whose parent lies in the tree at `d` lies strictly inside it. */
  lemma ChildInTree(k: string, d: string)
    requires ParentOf(k) != "" && InTree(ParentOf(k), d)
    ensures Below(k, d)
  {
  }

  /** No path is listed twice. */
  predicate UniquePaths(fs: FS) {
    fs == [] || (Find(fs[1..], fs[0].path).None? && UniquePaths(fs[1..]))
  }

  /** Every listed path hangs under a directory: it is not the root, and its
      parent is a directory. */
  ghost predicate Rooted(fs: FS) {
    forall k :: Find(fs, k).Some? ==> k != "" && IsDirAt(fs, ParentOf(k))
  }

  /** The shape of every filesystem the operating system presents. */
  ghost predicate Valid(fs: FS) {
    UniquePaths(fs) && Rooted(fs)
  }

  /** Every proper ancestor of an existing path is an existing directory, so
      in particular nothing lies below a file. */
  lemma {:induction false} AncestorsAreDirs(fs: FS, k: string, d: string)
    requires Rooted(fs) && Find(fs, k).Some? && Below(k, d) && d != ""
    ensures Find(fs, d).Some? && Find(fs, d).value.Dir?
    decreases |k|
  {
    var q := ParentOf(k);
    assert IsDirAt(fs, q);
    ParentInTree(k, d);
    if q != d {
      AncestorsAreDirs(fs, q, d);
    }
  }

  lemma {:induction false} AppendKeepsUnique(fs: FS, k: string, n: Node)
    requires UniquePaths(fs) && Find(fs, k).None?
    ensures UniquePaths(fs + [Entry(k, n)])
    decreases |fs|
  {
    if fs != [] {
      var fs' := fs + [Entry(k, n)];
      assert fs'[1..] == fs[1..] + [Entry(k, n)];
      assert fs[0].path != k;
      FindAppended(fs[1..], k, n);
      AppendKeepsUnique(fs[1..], k, n);
    }
  }

  /** Appending an entry for a fresh path adds that path and nothing else. */
  lemma {:induction false} FindAppended(fs: FS, k: string, n: Node)
    requires Find(fs, k).None?
    ensures Find(fs + [Entry(k, n)], k) == Some(n)
    ensures forall q :: q != k ==> Find(fs + [Entry(k, n)], q) == Find(fs, q)
  {
    if fs != [] {
      assert (fs + [Entry(k, n)])[1..] == fs[1..] + [Entry(k, n)];
      FindAppended(fs[1..], k, n);
    }
  }

  /** Creating a fresh file in an existing directory keeps the filesystem valid. */
  lemma CreateKeepsValid(fs: FS, k: string, n: Node)
    requires Valid(fs) && Find(fs, k).None? && k != "" && IsDirAt(fs, ParentOf(k))
    ensures Valid(fs + [Entry(k, n)])
  {
    var fs' := fs + [Entry(k, n)];
    AppendKeepsUnique(fs, k, n);
    FindAppended(fs, k, n);
    forall q | Find(fs', q).Some?
      ensures q != "" && IsDirAt(fs', ParentOf(q))
    {
      if q != k {
        assert IsDirAt(fs, ParentOf(q));
      }
    }
  }

  lemma {:induction false} RemoveTreeKeepsUnique(fs: FS, d: string)
    requires UniquePaths(fs)
    ensures UniquePaths(RemoveTree(fs, d))
    decreases |fs|
  {
    if fs != [] {
      RemoveTreeKeepsUnique(fs[1..], d);
    }
  }

  /** `os.RemoveAll` keeps the filesystem valid. */
  lemma RemoveAllKeepsValid(fs: FS, p: string)
    requires Valid(fs)
    ensures Valid(RemoveAll(fs, p).1)
  {
    if RemoveAll(fs, p).0.None? && p != "" {
      var r := RemoveTree(fs, p);
      RemoveTreeKeepsUnique(fs, p);
      forall k | Find(r, k).Some?
        ensures k != "" && IsDirAt(r, ParentOf(k))
      {
        var q := ParentOf(k);
        if q != "" && InTree(q, p) {
          ChildInTree(k, p);
        }
      }
    }
  }

  lemma {:induction false} MoveTreeKeepsUnique(fs: FS, source: string, target: string)
    requires UniquePaths(fs)
    ensures UniquePaths(MoveTree(fs, source, target))
    decreases |fs|
  {
    if fs != [] {
      MoveTreeKeepsUnique(fs[1..], source, target);
      var e := fs[0];
      if InTree(e.path, source) {
        var q := Rebase(e.path, source, target);
        RebaseInTree(e.path, source, target);
        MoveTreeFind(fs[1..], source, target, q);
      } else if !InTree(e.path, target) {
        MoveTreeFind(fs[1..], source, target, e.path);
      }
    }
  }

  /** The parent of the moved root stays a directory: it lies outside both
      trees, since a directory is never moved into itself and nothing lies
      below a file. */
  lemma MovedRootParent(fs: FS, source: string, target: string)
    requires Valid(fs) && Rename(fs, source, target).0.None?
    ensures IsDirAt(MoveTree(fs, source, target), ParentOf(target))
  {
    var q := ParentOf(target);
    if q != "" {
      MoveTreeFind(fs, source, target, q);
      assert !InTree(q, target);
      if InTree(q, source) {
        if q != source {
          AncestorsAreDirs(fs, q, source);
        }
        ChildInTree(target, source);
        assert false;
      }
    }
  }

  /** The parent of a path strictly inside the moved tree is the carried-over
      parent of its source counterpart. */
  lemma MovedParent(source: string, target: string, k: string)
    requires Below(k, target)
    ensures InTree(ParentOf(k), target)
    ensures Rebase(ParentOf(k), target, source) == ParentOf(Rebase(k, target, source))
  {
    var x := k[|target|..];
    assert k == target + x && x[0] == '/';
    ParentOfAppend(target, x);
    ParentOfAppend(source, x);
    ParentInTree(k, target);
    assert ParentOf(k)[|target|..] == ParentOf(x);
  }

  /** A successful `os.Rename` keeps the filesystem valid. */
  lemma RenameKeepsValid(fs: FS, source: string, target: string)
    requires Valid(fs) && Rename(fs, source, target).0.None?
    ensures Valid(Rename(fs, source, target).1)
  {
    var r := MoveTree(fs, source, target);
    MoveTreeKeepsUnique(fs, source, target);
    forall k | Find(r, k).Some?
      ensures k != "" && IsDirAt(r, ParentOf(k))
    {
      MoveTreeFind(fs, source, target, k);
      var q := ParentOf(k);
      if k == target {
        MovedRootParent(fs, source, target);
      } else if InTree(k, target) {
        var k0 := Rebase(k, target, source);
        MovedParent(source, target, k);
        MoveTreeFind(fs, source, target, q);
        assert IsDirAt(fs, ParentOf(k0));
        assert ParentOf(k0) != "" by {
          RebaseInTree(q, target, source);
        }
      } else if q != "" {
        MoveTreeFind(fs, source, target, q);
        if InTree(q, target) { ChildInTree(k, target); }
        if InTree(q, source) { ChildInTree(k, source); }
      }
    }
  }

  /** After a successful rename onto a different path, nothing is left at
      the source. */
  lemma RenameVacatesSource(fs: FS, source: string, target: string)
    requires Valid(fs) && Rename(fs, source, target).0.None? && source != target
    ensures Find(Rename(fs, source, target).1, source).None?
  {
    MoveTreeFind(fs, source, target, source);
    if InTree(source, target) {
      AncestorsAreDirs(fs, source, target);
    }
  }
}

=== FILE: local.dfy ===
/** The leaf store backed by the host filesystem: virtual paths are joined
    under a root directory, writes are staged in a temporary file and then
    renamed into place. */
module Local {
  import opened Results
  import opened Strings
  import opened FileSystem
  import opened Acona

  /** The configuration a local store is built from. */
  datatype Config = Config(rootDir: string, tempDir: string, checkInputHash: bool)

  /** The primitives the store calls whose code is not part of this model:
      `acona.SecureJoin`, `filepath.Join`, `os.TempDir()`, the random name and
      the clock `ioutil.TempFile` uses, and the checksum helpers. */
  datatype Platform = Platform(
    secureJoin: (string, string) -> string,
    pathJoin: (string, string) -> string,
    osTempDir: string,
    tempFileName: FS -> string,
    clock: FS -> int,
    hashTypeFromString: string -> HashType,
    hashValueFromString: string -> string,
    hashStream: Stream -> Result<map<HashType, string>, Error>)

  datatype LocalStore = LocalStore(name: string, root: string, rootDir: string, tempDir: string, checkInputHash: bool)

  /** `NewStore` as written: the root directory is the store's root joined
      under the configured one and an empty temp directory falls back to the
      system's; the checksum flag of the configuration is never copied, so it
      keeps Go's zero value. */
  function NewStore(name: string, root: string, config: Config, p: Platform): (s: LocalStore)
    ensures s.name == name && s.root == root
    ensures s.rootDir == p.secureJoin(config.rootDir, root)
    ensures config.tempDir != "" ==> s.tempDir == config.tempDir
    ensures config.tempDir == "" ==> s.tempDir == p.osTempDir
    ensures !s.checkInputHash
  {
    var tempDir := if config.tempDir == "" then p.osTempDir else config.tempDir;
    LocalStore(name, root, p.secureJoin(config.rootDir, root), tempDir, false)
  }

  /** `NewStore` as evidently intended: the same, but the checksum flag is
      taken from the configuration. */
  function NewStoreChecked(name: string, root: string, config: Config, p: Platform): (s: LocalStore)
    ensures s.name == name && s.root == root
    ensures s.rootDir == p.secureJoin(config.rootDir, root)
    ensures s.tempDir == if config.tempDir == "" then p.osTempDir else config.tempDir
    ensures s.checkInputHash == config.checkInputHash
  {
    NewStore(name, root, config, p).(checkInputHash := config.checkInputHash)
  }

  /** `getLocalPath`: the only way a virtual path becomes a physical one. */
  function LocalPath(s: LocalStore, p: Platform, path: string): string {
    p.secureJoin(s.rootDir, path)
  }

  /** The file `ioutil.TempFile` would create in the temp directory. */
  function StagingPath(s: LocalStore, p: Platform, fs: FS): string {
    p.pathJoin(s.tempDir, p.tempFileName(fs))
  }

  /** `saveToTempFile`: creates a fresh staging file and copies the whole
      stream into it. The exclusive create fails when the directory the
      staging path lies in is missing, or when the path is taken (the root
      counts as taken). On success it yields the staging path and the stream,
      now drained. The file stays behind when the copy fails. */
  function SaveToTempFile(s: LocalStore, p: Platform, fs: FS, reader: Stream): (r: (Result<(string, Stream), OsError>, FS))
    ensures r.0.Ok? <==> StagingFree(s, p, fs) && reader.Content?
    ensures r.0.Ok? ==> r.0.value == (StagingPath(s, p, fs), Content([]))
    ensures r.0.Ok? ==> Find(r.1, StagingPath(s, p, fs)) == Some(File(reader.remaining, p.clock(fs)))
    ensures StagingFree(s, p, fs) && reader.Failing? ==>
      r.0 == Err(reader.cause) && Find(r.1, StagingPath(s, p, fs)) == Some(File([], p.clock(fs)))
    ensures forall k :: k != StagingPath(s, p, fs) ==> Find(r.1, k) == Find(fs, k)
  {
    var tmp := StagingPath(s, p, fs);
    if !IsDirAt(fs, ParentOf(tmp)) then (Err(PathError("open", tmp, NotDirErrno(fs, ParentOf(tmp)))), fs)
    else if IsDirAt(fs, tmp) || Find(fs, tmp).Some? then (Err(PathError("open", tmp, EEXIST)), fs)
    else
      match reader
      case Failing(e) =>
        var n := File([], p.clock(fs));
        FindAppended(fs, tmp, n);
        (Err(e), fs + [Entry(tmp, n)])
      case Content(data) =>
        var n := File(data, p.clock(fs));
        FindAppended(fs, tmp, n);
        (Ok((tmp, Content([]))), fs + [Entry(tmp, n)])
  }

  /** Staging a file keeps the filesystem valid. */
  lemma SaveKeepsValid(s: LocalStore, p: Platform, fs: FS, reader: Stream)
    requires Valid(fs)
    ensures Valid(SaveToTempFile(s, p, fs, reader).1)
  {
    if StagingFree(s, p, fs) {
      CreateKeepsValid(fs, StagingPath(s, p, fs), File(if reader.Content? then reader.remaining else [], p.clock(fs)));
    }
  }

  /** The staging file can be created: its directory exists and the path is
      neither the root nor taken. */
  predicate StagingFree(s: LocalStore, p: Platform, fs: FS) {
    var tmp := StagingPath(s, p, fs);
    IsDirAt(fs, ParentOf(tmp)) && tmp != "" && Find(fs, tmp).None?
  }

  /** The checksum gate of `PutObject`, run over the stream `hashed`: it
      fails only when checking is on, the client named a known kind, and the
      computed value of that kind differs from the client's. */
  function VerifyHash(s: LocalStore, p: Platform, inputHash: string, hashed: Stream): (r: Option<Error>)
    ensures r == Some(Sentinel(HashesNotMatch)) <==>
      && s.checkInputHash
      && p.hashTypeFromString(inputHash) != HashNone
      && p.hashStream(hashed).Ok?
      && HashOf(p.hashStream(hashed).value, p.hashTypeFromString(inputHash)) != p.hashValueFromString(inputHash)
    ensures r.None? <==>
      || !s.checkInputHash
      || p.hashTypeFromString(inputHash) == HashNone
      || (p.hashStream(hashed).Ok? &&
          HashOf(p.hashStream(hashed).value, p.hashTypeFromString(inputHash)) == p.hashValueFromString(inputHash))
    ensures s.checkInputHash && p.hashTypeFromString(inputHash) != HashNone && p.hashStream(hashed).Err? ==>
      r == Some(Wrapped("can't compute hash", p.hashStream(hashed).error))
  {
    if !s.checkInputHash then None
    else
      var kind := p.hashTypeFromString(inputHash);
      if kind == HashNone then None
      else match p.hashStream(hashed)
        case Err(e) => Some(Wrapped("can't compute hash", e))
        case Ok(computed) =>
          if HashOf(computed, kind) != p.hashValueFromString(inputHash) then Some(Sentinel(HashesNotMatch)) else None
  }

  /** The final step of `PutObject`: renames the staging file onto the
      target and translates a failure. */
  function Commit(s: LocalStore, p: Platform, fs: FS, tmp: string, path: string): (r: (Option<Error>, FS))
    ensures r.0.Some? ==> r.1 == fs
    ensures r.0.Some? ==> r.0.value == Sentinel(ObjectNotFound) || r.0.value.Wrapped?
    ensures r.0 == Some(Sentinel(ObjectNotFound)) <==>
      var e := FileSystem.Rename(fs, tmp, LocalPath(s, p, path)).0; e.Some? && IsNotExist(e.value)
    ensures r.0.None? <==> FileSystem.Rename(fs, tmp, LocalPath(s, p, path)).0.None?
    ensures r.0.None? ==> Find(r.1, LocalPath(s, p, path)) == Find(fs, tmp)
    ensures r.0.None? ==> forall k :: !InTree(k, tmp) && !InTree(k, LocalPath(s, p, path)) ==> Find(r.1, k) == Find(fs, k)
  {
    var target := LocalPath(s, p, path);
    var (e, fs') := FileSystem.Rename(fs, tmp, target);
    if e.None? then
      RenameMoves(fs, tmp, target);
      (None, fs')
    else if IsNotExist(e.value) then (Some(Sentinel(ObjectNotFound)), fs')
    else (Some(Wrapped("can't rename tmp file to target", Os(e.value))), fs')
  }

  /** `PutObject` as written: the checksum is computed over the reader after
      staging has drained it. */
  function PutObject(s: LocalStore, p: Platform, fs: FS, reader: Stream, path: string, inputHash: string): (r: (Option<Error>, FS))
    ensures r.0.None? ==> reader.Content? && Find(r.1, LocalPath(s, p, path)) == Some(File(reader.remaining, p.clock(fs)))
    ensures r.0.None? ==> forall k :: !InTree(k, LocalPath(s, p, path)) && !InTree(k, StagingPath(s, p, fs)) ==> Find(r.1, k) == Find(fs, k)
    ensures r.0.Some? ==> forall k :: k != StagingPath(s, p, fs) ==> Find(r.1, k) == Find(fs, k)
    ensures r.0 == Some(Sentinel(HashesNotMatch)) <==>
      && SaveToTempFile(s, p, fs, reader).0.Ok?
      && VerifyHash(s, p, inputHash, Content([])) == Some(Sentinel(HashesNotMatch))
    ensures SaveToTempFile(s, p, fs, reader).0.Err? ==>
      r.0 == Some(Wrapped("can't save to temp file", Os(SaveToTempFile(s, p, fs, reader).0.error)))
    ensures SaveToTempFile(s, p, fs, reader).0.Ok? && VerifyHash(s, p, inputHash, Content([])).None? ==>
      r == Commit(s, p, SaveToTempFile(s, p, fs, reader).1, StagingPath(s, p, fs), path)
  {
    var (staged, fs1) := SaveToTempFile(s, p, fs, reader);
    match staged
    case Err(e) => (Some(Wrapped("can't save to temp file", Os(e))), fs1)
    case Ok((tmp, drained)) =>
      var gate := VerifyHash(s, p, inputHash, drained);
      if gate.Some? then (gate, fs1)
      else Commit(s, p, fs1, tmp, path)
  }

  /** `PutObject` as evidently intended: the checksum is computed over the
      content that was staged. */
  function PutObjectVerified(s: LocalStore, p: Platform, fs: FS, reader: Stream, path: string, inputHash: string): (r: (Option<Error>, FS))
    ensures r.0.None? ==> reader.Content? && Find(r.1, LocalPath(s, p, path)) == Some(File(reader.remaining, p.clock(fs)))
    ensures r.0.None? ==> VerifyHash(s, p, inputHash, reader).None?
    ensures r.0.None? ==> forall k :: !InTree(k, LocalPath(s, p, path)) && !InTree(k, StagingPath(s, p, fs)) ==> Find(r.1, k) == Find(fs, k)
    ensures r.0.Some? ==> forall k :: k != StagingPath(s, p, fs) ==> Find(r.1, k) == Find(fs, k)
    ensures r.0 == Some(Sentinel(HashesNotMatch)) <==>
      && SaveToTempFile(s, p, fs, reader).0.Ok?
      && VerifyHash(s, p, inputHash, reader) == Some(Sentinel(HashesNotMatch))
    ensures SaveToTempFile(s, p, fs, reader).0.Err? ==>
      r.0 == Some(Wrapped("can't save to temp file", Os(SaveToTempFile(s, p, fs, reader).0.error)))
    ensures SaveToTempFile(s, p, fs, reader).0.Ok? && VerifyHash(s, p, inputHash, reader).None? ==>
      r == Commit(s, p, SaveToTempFile(s, p, fs, reader).1, StagingPath(s, p, fs), path)
  {
    var (staged, fs1) := SaveToTempFile(s, p, fs, reader);
    match staged
    case Err(e) => (Some(Wrapped("can't save to temp file", Os(e))), fs1)
    case Ok((tmp, _)) =>
      var gate := VerifyHash(s, p, inputHash, reader);
      if gate.Some? then (gate, fs1)
      else Commit(s, p, fs1, tmp, path)
  }

  /** `GetObject`: opens the physical path; a missing path is reported as
      such, other failures are wrapped. */
  function GetObject(s: LocalStore, p: Platform, fs: FS, path: string): (r: Result<Stream, Error>)
    ensures r.Ok? <==> Lookup(fs, LocalPath(s, p, path)).Some?
    ensures forall d, t :: Lookup(fs, LocalPath(s, p, path)) == Some(File(d, t)) ==> r == Ok(Content(d))
    ensures r.Err? ==> (r.error == Sentinel(ObjectNotFound) <==> !HasFileAncestor(fs, LocalPath(s, p, path)))
    ensures r.Err? && r.error != Sentinel(ObjectNotFound) ==> r.error.Wrapped? && r.error.msg == "can't open local file"
  {
    match Open(fs, LocalPath(s, p, path))
    case Err(e) => if IsNotExist(e) then Err(Sentinel(ObjectNotFound)) else Err(Wrapped("can't open local file", Os(e)))
    case Ok(fd) => Ok(fd)
  }

  /** `Examine`: metadata of the physical path under the caller's own
      virtual path, which is also the object's identity. */
  function Examine(s: LocalStore, p: Platform, fs: FS, path: string): (r: Result<Object, Error>)
    ensures r.Ok? <==> Lookup(fs, LocalPath(s, p, path)).Some?
    ensures r.Ok? ==> r.value.LocalObject? && r.value.path == path && r.value.ID() == path && r.value.Checksum() == ""
    ensures r.Ok? ==> r.value.IsDir() == Lookup(fs, LocalPath(s, p, path)).value.Dir?
    ensures r.Err? ==> (r.error == Sentinel(ObjectNotFound) <==> !HasFileAncestor(fs, LocalPath(s, p, path)))
    ensures r.Err? && r.error != Sentinel(ObjectNotFound) ==> r.error.Wrapped? && r.error.msg == "can't examine"
  {
    match Stat(fs, LocalPath(s, p, path))
    case Err(e) => if IsNotExist(e) then Err(Sentinel(ObjectNotFound)) else Err(Wrapped("can't examine", Os(e)))
    case Ok(info) => Ok(LocalObject(info, path))
  }

  /** `ListTree`: one object per entry of the directory, in read order, each
      addressed by the listed virtual path joined with the entry's name. */
  function ListTree(s: LocalStore, p: Platform, fs: FS, path: string): (r: Result<seq<Object>, Error>)
    ensures Lookup(fs, LocalPath(s, p, path)).None? ==>
      r.Err? && (r.error == Sentinel(ObjectNotFound) <==> !HasFileAncestor(fs, LocalPath(s, p, path)))
    ensures Lookup(fs, LocalPath(s, p, path)).None? && HasFileAncestor(fs, LocalPath(s, p, path)) ==>
      r == Err(Wrapped("can't stat", Os(PathError("stat", LocalPath(s, p, path), ENOTDIR))))
    ensures Lookup(fs, LocalPath(s, p, path)).Some? && Lookup(fs, LocalPath(s, p, path)).value.File? ==> r == Err(Sentinel(IsFile))
    ensures r.Ok? <==> Lookup(fs, LocalPath(s, p, path)).Some? && Lookup(fs, LocalPath(s, p, path)).value.Dir?
    ensures r.Ok? ==> var entries := Readdir(fs, LocalPath(s, p, path));
      && |r.value| == |entries|
      && forall i :: 0 <= i < |entries| ==> r.value[i] == LocalObject(entries[i], p.pathJoin(path, entries[i].name))
  {
    var lp := LocalPath(s, p, path);
    match Stat(fs, lp)
    case Err(e) => if IsNotExist(e) then Err(Sentinel(ObjectNotFound)) else Err(Wrapped("can't stat", Os(e)))
    case Ok(info) =>
      if !info.isDir then Err(Sentinel(IsFile))
      else
        var entries := Readdir(fs, lp);
        Ok(seq(|entries|, i requires 0 <= i < |entries| => ChildObject(p, path, entries[i])))
  }

  /** The object for one directory entry: its path is the listed virtual
      path joined with `filepath.Base` of the entry's name. */
  function ChildObject(p: Platform, path: string, info: FileInfo): (o: Object)
    requires info.name != "" && '/' !in info.name
    ensures o == LocalObject(info, p.pathJoin(path, info.name))
  {
    BaseOfName(info.name);
    LocalObject(info, p.pathJoin(path, Base(info.name)))
  }

  /** `Remove`: deletes the physical path and everything under it. */
  function Remove(s: LocalStore, p: Platform, fs: FS, path: string): (r: (Option<Error>, FS))
    ensures r.0.None? ==> forall k :: Find(r.1, k) == if InTree(k, LocalPath(s, p, path)) && LocalPath(s, p, path) != "" then None else Find(fs, k)
    ensures r.0.Some? ==> r.1 == fs && r.0.value.Wrapped? && r.0.value.msg == "can't remove"
    ensures var lp := LocalPath(s, p, path);
      r.0.Some? <==> lp != "" && (EndsWithDot(lp) || (Find(fs, lp).None? && HasFileAncestor(fs, lp)))
  {
    var (e, fs') := RemoveAll(fs, LocalPath(s, p, path));
    if e.Some? then (Some(Wrapped("can't remove", Os(e.value))), fs') else (None, fs')
  }

  /** `Rename`: moves the physical source to the physical destination. */
  function Rename(s: LocalStore, p: Platform, fs: FS, srcPath: string, destPath: string): (r: (Option<Error>, FS))
    ensures r.0.Some? ==> r.1 == fs && (r.0.value == Sentinel(ObjectNotFound) || r.0.value == Sentinel(CantMove))
    ensures var src, dst := LocalPath(s, p, srcPath), LocalPath(s, p, destPath);
      Find(fs, src).None? && (IsDirAt(fs, dst) || !IsDirAt(fs, ParentOf(src)) || IsDirAt(fs, ParentOf(dst))) ==>
        r.0.Some? && (r.0.value == Sentinel(ObjectNotFound) <==> !HasFileAncestor(fs, src))
    ensures var src, dst := LocalPath(s, p, srcPath), LocalPath(s, p, destPath);
      Find(fs, src).None? && !IsDirAt(fs, dst) && IsDirAt(fs, ParentOf(src)) && !IsDirAt(fs, ParentOf(dst)) ==>
        r.0.Some? && (r.0.value == Sentinel(ObjectNotFound) <==> NotDirErrno(fs, ParentOf(dst)) == ENOENT)
    ensures var src, dst := LocalPath(s, p, srcPath), LocalPath(s, p, destPath);
      r.0.None? <==>
        && Find(fs, src).Some?
        && !IsDirAt(fs, dst)
        && IsDirAt(fs, ParentOf(dst))
        && (Find(fs, src).value.Dir? ==> !InTree(dst, src) && Find(fs, dst).None?)
    ensures r.0.None? ==> Find(r.1, LocalPath(s, p, destPath)) == Find(fs, LocalPath(s, p, srcPath))
    ensures r.0.None? ==> forall k :: !InTree(k, LocalPath(s, p, srcPath)) && !InTree(k, LocalPath(s, p, destPath)) ==> Find(r.1, k) == Find(fs, k)
  {
    var src := LocalPath(s, p, srcPath);
    var dst := LocalPath(s, p, destPath);
    var (e, fs') := FileSystem.Rename(fs, src, dst);
    match e
    case None =>
      RenameMoves(fs, src, dst);
      (None, fs')
    case Some(err) =>
      if IsNotExist(err) then (Some(Sentinel(ObjectNotFound)), fs')
      else if err.LinkError? then (Some(Sentinel(CantMove)), fs')
      else (Some(Wrapped("can't move", Os(err))), fs')
  }

  /** A listing misses nothing: every entry directly inside the listed
      directory appears, addressed by the listed path joined with its name. */
  lemma ListTreeListsEveryChild(s: LocalStore, p: Platform, fs: FS, path: string, k: string)
    requires ListTree(s, p, fs, path).Ok?
    requires Find(fs, k).Some? && ParentOf(k) == LocalPath(s, p, path) && Leaf(k) != ""
    ensures var objects := ListTree(s, p, fs, path).value;
      exists i :: 0 <= i < |objects| && objects[i] == LocalObject(InfoOf(Leaf(k), Find(fs, k).value), p.pathJoin(path, Leaf(k)))
  {
    var lp := LocalPath(s, p, path);
    ChildrenComplete(fs, lp, k);
    var i :| 0 <= i < |Children(fs, lp)| && Children(fs, lp)[i] == Entry(k, Find(fs, k).value);
    assert Readdir(fs, lp)[i] == InfoOf(Leaf(k), Find(fs, k).value);
  }

  /** A stored upload reads back as the bytes that were written and
      examines as a file under the caller's own path. */
  lemma PutThenGet(s: LocalStore, p: Platform, fs: FS, reader: Stream, path: string, inputHash: string)
    requires PutObjectVerified(s, p, fs, reader, path, inputHash).0.None?
    ensures var after := PutObjectVerified(s, p, fs, reader, path, inputHash).1;
      && reader.Content?
      && GetObject(s, p, after, path) == Ok(reader)
      && Examine(s, p, after, path).Ok?
      && !Examine(s, p, after, path).value.IsDir()
      && Examine(s, p, after, path).value.Path(p.secureJoin) == path
  {
    var after := PutObjectVerified(s, p, fs, reader, path, inputHash).1;
    assert Find(after, LocalPath(s, p, path)) == Some(File(reader.remaining, p.clock(fs)));
  }

  /** After a successful removal the path is gone: it neither examines nor
      opens. */
  lemma RemoveThenExamine(s: LocalStore, p: Platform, fs: FS, path: string)
    requires Remove(s, p, fs, path).0.None? && LocalPath(s, p, path) != ""
    ensures var after := Remove(s, p, fs, path).1;
      Examine(s, p, after, path).Err? && GetObject(s, p, after, path).Err?
  {
    var after := Remove(s, p, fs, path).1;
    assert InTree(LocalPath(s, p, path), LocalPath(s, p, path));
    assert Find(after, LocalPath(s, p, path)).None?;
  }

  /** After a successful rename the destination examines as the source did
      (file or directory), and a renamed file reads back its content. */
  lemma RenameThenGet(s: LocalStore, p: Platform, fs: FS, srcPath: string, destPath: string)
    requires Rename(s, p, fs, srcPath, destPath).0.None?
    ensures var after := Rename(s, p, fs, srcPath, destPath).1;
      && Examine(s, p, fs, srcPath).Ok?
      && Examine(s, p, after, destPath).Ok?
      && Examine(s, p, after, destPath).value.IsDir() == Examine(s, p, fs, srcPath).value.IsDir()
      && forall d, t :: Find(fs, LocalPath(s, p, srcPath)) == Some(File(d, t)) ==> GetObject(s, p, after, destPath) == Ok(Content(d))
  {
    var after := Rename(s, p, fs, srcPath, destPath).1;
    assert Find(fs, LocalPath(s, p, srcPath)).Some?;
    assert Find(after, LocalPath(s, p, destPath)) == Find(fs, LocalPath(s, p, srcPath));
  }

  /** Every mutating operation of the local store keeps the host
      filesystem valid. */
  lemma OperationsKeepValid(s: LocalStore, p: Platform, fs: FS, reader: Stream, path: string, destPath: string, inputHash: string)
    requires Valid(fs)
    ensures Valid(PutObject(s, p, fs, reader, path, inputHash).1)
    ensures Valid(PutObjectVerified(s, p, fs, reader, path, inputHash).1)
    ensures Valid(Remove(s, p, fs, path).1)
    ensures Valid(Rename(s, p, fs, path, destPath).1)
  {
    SaveKeepsValid(s, p, fs, reader);
    var fs1 := SaveToTempFile(s, p, fs, reader).1;
    var tmp, target := StagingPath(s, p, fs), LocalPath(s, p, path);
    if FileSystem.Rename(fs1, tmp, target).0.None? {
      RenameKeepsValid(fs1, tmp, target);
    }
    RemoveAllKeepsValid(fs, target);
    if FileSystem.Rename(fs, target, LocalPath(s, p, destPath)).0.None? {
      RenameKeepsValid(fs, target, LocalPath(s, p, destPath));
    }
  }

  /** After a successful rename onto a different physical path, the source
      neither examines nor opens. */
  lemma RenameClearsSource(s: LocalStore, p: Platform, fs: FS, srcPath: string, destPath: string)
    requires Valid(fs)
    requires Rename(s, p, fs, srcPath, destPath).0.None?
    requires LocalPath(s, p, srcPath) != LocalPath(s, p, destPath)
    ensures var after := Rename(s, p, fs, srcPath, destPath).1;
      Examine(s, p, after, srcPath).Err? && GetObject(s, p, after, srcPath).Err?
  {
    FileSystem.RenameVacatesSource(fs, LocalPath(s, p, srcPath), LocalPath(s, p, destPath));
  }

  /** After a successful upload the staging file is gone: it was renamed
      onto the target. */
  lemma PutClearsStaging(s: LocalStore, p: Platform, fs: FS, reader: Stream, path: string, inputHash: string)
    requires Valid(fs)
    requires PutObjectVerified(s, p, fs, reader, path, inputHash).0.None?
    requires StagingPath(s, p, fs) != LocalPath(s, p, path)
    ensures Find(PutObjectVerified(s, p, fs, reader, path, inputHash).1, StagingPath(s, p, fs)).None?
  {
    SaveKeepsValid(s, p, fs, reader);
    var fs1 := SaveToTempFile(s, p, fs, reader).1;
    FileSystem.RenameVacatesSource(fs1, StagingPath(s, p, fs), LocalPath(s, p, path));
  }

  /** With checking off, or a checksum string that names no known kind,
      nothing is verified: a staged upload goes straight to the rename, whose
      missing-directory failure reads as a missing object. */
  lemma UncheckedPutCommits(s: LocalStore, p: Platform, fs: FS, reader: Stream, path: string, inputHash: string)
    requires !s.checkInputHash || p.hashTypeFromString(inputHash) == HashNone
    requires SaveToTempFile(s, p, fs, reader).0.Ok?
    ensures var fs1 := SaveToTempFile(s, p, fs, reader).1;
      && PutObject(s, p, fs, reader, path, inputHash) == Commit(s, p, fs1, StagingPath(s, p, fs), path)
      && PutObjectVerified(s, p, fs, reader, path, inputHash) == Commit(s, p, fs1, StagingPath(s, p, fs), path)
    ensures var target := LocalPath(s, p, path);
      var fs1 := SaveToTempFile(s, p, fs, reader).1;
      Find(fs1, target).None? && !IsDirAt(fs1, ParentOf(target)) && !HasFileAncestor(fs1, ParentOf(target)) && Find(fs1, ParentOf(target)).None? ==>
      PutObject(s, p, fs, reader, path, inputHash).0 == Some(Sentinel(ObjectNotFound))
  {
  }

  /** With the corrected store and upload, a checksum of a known kind that
      differs from the staged content's is refused, and the target path keeps
      what it held. */
  lemma CheckedPutRejectsMismatch(name: string, root: string, config: Config, p: Platform, fs: FS, data: seq<byte>, path: string, inputHash: string)
    requires config.checkInputHash
    requires p.hashTypeFromString(inputHash) != HashNone
    requires p.hashStream(Content(data)).Ok?
    requires HashOf(p.hashStream(Content(data)).value, p.hashTypeFromString(inputHash)) != p.hashValueFromString(inputHash)
    requires var s := NewStoreChecked(name, root, config, p);
      StagingFree(s, p, fs) && StagingPath(s, p, fs) != LocalPath(s, p, path)
    ensures var s := NewStoreChecked(name, root, config, p);
      var r := PutObjectVerified(s, p, fs, Content(data), path, inputHash);
      r.0 == Some(Sentinel(HashesNotMatch)) && Find(r.1, LocalPath(s, p, path)) == Find(fs, LocalPath(s, p, path))
  {
  }

  /** As written, whether an upload is refused for its checksum does not
      depend on what is uploaded: the hash only ever sees a drained stream. */
  lemma AsWrittenVerdictIgnoresContent(s: LocalStore, p: Platform, fs: FS, d1: seq<byte>, d2: seq<byte>, path: string, inputHash: string)
    ensures PutObject(s, p, fs, Content(d1), path, inputHash).0 == Some(Sentinel(HashesNotMatch))
        <==> PutObject(s, p, fs, Content(d2), path, inputHash).0 == Some(Sentinel(HashesNotMatch))
  {
  }

  /** A platform for the concrete cases below: paths join to their last
      part, every checksum is an "md5" whose value is the string itself, and
      the hash of a stream is "empty" once drained and "full" before. */
  function Demo(): Platform {
    Platform(
      (dir, path) => path,
      (dir, name) => name,
      "",
      fs => "staging",
      fs => 0,
      h => HashKind("md5"),
      h => h,
      st => if st == Content([]) then Ok(map[HashKind("md5") := "empty"]) else Ok(map[HashKind("md5") := "full"]))
  }

  /** A store configured to check checksums still accepts an upload whose
      checksum is wrong, because `NewStore` never copies the flag. The
      corrected constructor refuses it. */
  lemma ConfiguredCheckIsIgnored()
    ensures var config := Config("", "", true);
      PutObject(NewStore("n", "", config, Demo()), Demo(), [], Content([1]), "x", "wrong").0 == None
    ensures var config := Config("", "", true);
      PutObjectVerified(NewStoreChecked("n", "", config, Demo()), Demo(), [], Content([1]), "x", "wrong").0 == Some(Sentinel(HashesNotMatch))
  {
    var s := NewStore("n", "", Config("", "", true), Demo());
    var fs1 := [Entry("staging", File([1], 0))];
    assert s.tempDir == "" && StagingPath(s, Demo(), []) == "staging" && Demo().clock([]) == 0;
    assert [] + [Entry("staging", File([1], 0))] == fs1;
    assert SaveToTempFile(s, Demo(), [], Content([1])) == (Ok(("staging", Content([]))), fs1);
    assert ParentOf("x") == "";
    assert FileSystem.Rename(fs1, "staging", "x").0 == None;
  }

  /** With checking on, an upload whose checksum is the right one for its
      content is refused, because the hash is taken of the drained stream.
      Hashing the staged content accepts it. */
  lemma DrainedStreamRejectsCorrectChecksum()
    ensures var s := NewStoreChecked("n", "", Config("", "", true), Demo());
      PutObject(s, Demo(), [], Content([1]), "x", "full").0 == Some(Sentinel(HashesNotMatch))
    ensures var s := NewStoreChecked("n", "", Config("", "", true), Demo());
      PutObjectVerified(s, Demo(), [], Content([1]), "x", "full").0 == None
  {
    var s := NewStoreChecked("n", "", Config("", "", true), Demo());
    var fs1 := [Entry("staging", File([1], 0))];
    assert s.tempDir == "" && StagingPath(s, Demo(), []) == "staging" && Demo().clock([]) == 0;
    assert [] + [Entry("staging", File([1], 0))] == fs1;
    assert SaveToTempFile(s, Demo(), [], Content([1])) == (Ok(("staging", Content([]))), fs1);
    assert Demo().hashStream(Content([1])) == Ok(map[HashKind("md5") := "full"]);
    assert ParentOf("x") == "";
    assert FileSystem.Rename(fs1, "staging", "x").0 == None;
  }

  /** The destination's directory is resolved before the source is looked
      up: renaming a missing source to a path under a file is refused as a
      move, not reported as a missing object. */
  lemma MissingSourceUnderFileIsCantMove(s: LocalStore)
    ensures Rename(s, Demo(), [Entry("f", File([], 0))], "x", "f/y").0 == Some(Sentinel(CantMove))
  {
    BlockedTargetBeforeMissingSource();
  }

  /** The local store seen through the storage contract, built on the
      corrected `PutObject`. */
  function AsStore(s: LocalStore, p: Platform): (r: Store<FS>)
    ensures r.name == s.name && r.root == s.root
    ensures forall fs, reader, path, h :: r.putObject(fs, reader, path, h) == PutObjectVerified(s, p, fs, reader, path, h)
    ensures forall fs, path :: r.getObject(fs, path) == GetObject(s, p, fs, path)
    ensures forall fs, path :: r.examine(fs, path) == Examine(s, p, fs, path)
    ensures forall fs, path :: r.listTree(fs, path) == ListTree(s, p, fs, path)
    ensures forall fs, path :: r.remove(fs, path) == Remove(s, p, fs, path)
    ensures forall fs, src, dst :: r.rename(fs, src, dst) == Rename(s, p, fs, src, dst)
  {
    Store(s.name, s.root,
      (fs, reader, path, h) => PutObjectVerified(s, p, fs, reader, path, h),
      (fs, path) => GetObject(s, p, fs, path),
      (fs, path) => Examine(s, p, fs, path),
      (fs, path) => ListTree(s, p, fs, path),
      (fs, path) => Remove(s, p, fs, path),
      (fs, src, dst) => Rename(s, p, fs, src, dst))
  }
}

=== FILE: results.dfy ===
/** Failure-carrying wrappers for Go's `(T, error)` pairs and nil-able errors. */
module Results {

  /** A value that may be absent; `None` plays the part of Go's nil error. */
  datatype Option<+T> = None | Some(value: T)

  /** Either a value or an error, as a Go function returning `(T, error)`. */
  datatype Result<+T, +E> = Ok(value: T) | Err(error: E)
}

=== FILE: root.dfy ===
/** The composite store: an ordered list of named child stores addressed
    through one namespace whose first path segment picks the child. */
module Root {
  import opened Results
  import opened Strings
  import opened FileSystem
  import opened Acona

  /** A composite store over children whose shared state is `S`. The list
      order is the routing order; names are not checked for uniqueness. */
  datatype RootStore<!S> = RootStore(name: string, root: string, stores: seq<Store<S>>)

  /** The path as resolution sees it: white space, then slashes, trimmed
      from both ends. */
  function Normalize(path: string): (r: string)
    ensures |r| <= |path|
    ensures r == [] || (r[0] != '/' && r[|r| - 1] != '/')
  {
    TrimSlashes(TrimSpace(path))
  }

  /** The segments of the normalised path. */
  function Tokens(path: string): (r: seq<string>)
    ensures |r| >= 1
    ensures forall i :: 0 <= i < |r| ==> '/' !in r[i]
  {
    Split(Normalize(path), '/')
  }

  /** The path handed to the chosen child: the second segment alone, or ""
      when there is none. Later segments are not forwarded. */
  function Forwarded(path: string): (r: string)
    ensures '/' !in r
  {
    var t := Tokens(path);
    if |t| > 1 then t[1] else ""
  }

  /** The segment that names the child. */
  function FirstSegment(path: string): (r: string)
    ensures '/' !in r
  {
    Tokens(path)[0]
  }

  /** `i` is the first child whose name is the path's first segment. */
  predicate RoutesTo<S>(stores: seq<Store<S>>, path: string, i: int) {
    && 0 <= i < |stores|
    && stores[i].name == FirstSegment(path)
    && forall j :: 0 <= j < i ==> stores[j].name != FirstSegment(path)
  }

  /** Some child's name is the path's first segment. */
  predicate Routable<S>(stores: seq<Store<S>>, path: string) {
    exists i :: 0 <= i < |stores| && stores[i].name == FirstSegment(path)
  }

  /** The position of the first child called `name`. */
  function FirstNamed<S>(stores: seq<Store<S>>, name: string): (r: Option<nat>)
    ensures r.None? <==> forall i :: 0 <= i < |stores| ==> stores[i].name != name
    ensures r.Some? ==> r.value < |stores| && stores[r.value].name == name
    ensures r.Some? ==> forall j :: 0 <= j < r.value ==> stores[j].name != name
  {
    if stores == [] then None
    else if stores[0].name == name then Some(0)
    else match FirstNamed(stores[1..], name)
      case None => None
      case Some(k) => Some(k + 1)
  }

  /** The position of the child a routable path goes to. */
  function ChildOf<S>(stores: seq<Store<S>>, path: string): (i: nat)
    requires Routable(stores, path)
    ensures RoutesTo(stores, path, i)
  {
    FirstNamed(stores, FirstSegment(path)).value
  }

  /** Where a resolved request goes: the child's position and its path. */
  datatype Route = Route(index: nat, rest: string)

  /** `getStoreFromPath`: picks the first child named by the first segment
      and the path to forward to it, or reports the object missing. */
  function Resolve<S>(stores: seq<Store<S>>, path: string): (r: Result<Route, Error>)
    ensures r.Ok? <==> Routable(stores, path)
    ensures r.Ok? ==> r == Ok(Route(ChildOf(stores, path), Forwarded(path)))
    ensures r.Err? ==> r.error == Sentinel(ObjectNotFound)
  {
    var found := FirstNamed(stores, FirstSegment(path));
    if found.None? then Err(Sentinel(ObjectNotFound)) else Ok(Route(found.value, Forwarded(path)))
  }

  /** The child a path routes to is unique. */
  lemma RouteIsUnique<S>(stores: seq<Store<S>>, path: string, i: int, j: int)
    requires RoutesTo(stores, path, i) && RoutesTo(stores, path, j)
    ensures i == j
  {
  }

  /** Only the second segment is forwarded: for a normalised path made of
      the segments `segs`, the child sees `segs[1]` and nothing after it. */
  lemma ForwardsSecondSegmentOnly(path: string, segs: seq<string>)
    requires |segs| >= 1
    requires forall i :: 0 <= i < |segs| ==> '/' !in segs[i]
    requires Normalize(path) == JoinWith(segs, '/')
    ensures Tokens(path) == segs
    ensures Forwarded(path) == if |segs| > 1 then segs[1] else ""
  {
    SplitOfJoin(segs, '/');
  }

  /** A later child whose name repeats an earlier one's is never chosen. */
  lemma LaterDuplicateIsShadowed<S>(stores: seq<Store<S>>, path: string, i: int, j: int)
    requires 0 <= i < j < |stores| && stores[i].name == stores[j].name
    ensures !RoutesTo(stores, path, j)
  {
  }

  /** The object the root store hands out: the child's object decorated
      with the child's name as path prefix (`newObject`). */
  function NewObject(prefix: string, o: Object): (r: Object)
    ensures forall join: (string, string) -> string :: r.Path(join) == join(prefix, o.Path(join))
    ensures Innermost(r) == Innermost(o) && Prefixes(r) == [prefix] + Prefixes(o)
  {
    RootObject(prefix, o)
  }

  /** `PutObject`: forwarded untouched to the routed child. */
  function PutObject<S>(rs: RootStore<S>, st: S, reader: Stream, path: string, inputHash: string): (r: (Option<Error>, S))
    ensures !Routable(rs.stores, path) ==> r == (Some(Sentinel(ObjectNotFound)), st)
    ensures Routable(rs.stores, path) ==> var i := ChildOf(rs.stores, path); r == rs.stores[i].putObject(st, reader, Forwarded(path), inputHash)
  {
    match Resolve(rs.stores, path)
    case Err(e) => (Some(e), st)
    case Ok(Route(i, p)) => rs.stores[i].putObject(st, reader, p, inputHash)
  }

  /** `GetObject`: forwarded untouched to the routed child. */
  function GetObject<S>(rs: RootStore<S>, st: S, path: string): (r: Result<Stream, Error>)
    ensures !Routable(rs.stores, path) ==> r == Err(Sentinel(ObjectNotFound))
    ensures Routable(rs.stores, path) ==> var i := ChildOf(rs.stores, path); r == rs.stores[i].getObject(st, Forwarded(path))
  {
    match Resolve(rs.stores, path)
    case Err(e) => Err(e)
    case Ok(Route(i, p)) => rs.stores[i].getObject(st, p)
  }

  /** `Remove`: forwarded untouched to the routed child. */
  function Remove<S>(rs: RootStore<S>, st: S, path: string): (r: (Option<Error>, S))
    ensures !Routable(rs.stores, path) ==> r == (Some(Sentinel(ObjectNotFound)), st)
    ensures Routable(rs.stores, path) ==> var i := ChildOf(rs.stores, path); r == rs.stores[i].remove(st, Forwarded(path))
  {
    match Resolve(rs.stores, path)
    case Err(e) => (Some(e), st)
    case Ok(Route(i, p)) => rs.stores[i].remove(st, p)
  }

  /** `Examine`: the routed child's object, prefixed with the child's name;
      a child error is wrapped. */
  function Examine<S>(rs: RootStore<S>, st: S, path: string): (r: Result<Object, Error>)
    ensures !Routable(rs.stores, path) ==> r == Err(Sentinel(ObjectNotFound))
    ensures Routable(rs.stores, path) ==> var i := ChildOf(rs.stores, path);
      var c := rs.stores[i].examine(st, Forwarded(path));
      && r.Ok? == c.Ok?
      && (c.Ok? ==> r.value == RootObject(rs.stores[i].name, c.value))
      && (c.Err? ==> r.error == Wrapped("can't examine", c.error))
  {
    match Resolve(rs.stores, path)
    case Err(e) => Err(e)
    case Ok(Route(i, p)) =>
      match rs.stores[i].examine(st, p)
      case Err(e) => Err(Wrapped("can't examine", e))
      case Ok(o) => Ok(NewObject(rs.stores[i].name, o))
  }

  /** `listRoot`: each child's own root, examined in list order and prefixed
      with the child's name; the first failure aborts the listing. */
  function ListRoot<S>(stores: seq<Store<S>>, st: S): (r: Result<seq<Object>, Error>)
    ensures r.Ok? <==> forall i :: 0 <= i < |stores| ==> stores[i].examine(st, "").Ok?
    ensures r.Ok? ==> |r.value| == |stores|
    ensures r.Ok? ==> forall i :: 0 <= i < |stores| ==>
      r.value[i] == RootObject(stores[i].name, stores[i].examine(st, "").value)
    ensures r.Err? ==> exists i :: FirstFailure(stores, st, i) && r.error == Wrapped("can't examine", stores[i].examine(st, "").error)
  {
    if stores == [] then Ok([])
    else match stores[0].examine(st, "")
      case Err(e) =>
        assert FirstFailure(stores, st, 0);
        Err(Wrapped("can't examine", e))
      case Ok(o) =>
        match ListRoot(stores[1..], st)
        case Err(e) =>
          var k :| FirstFailure(stores[1..], st, k) && e == Wrapped("can't examine", stores[1..][k].examine(st, "").error);
          assert FirstFailure(stores, st, k + 1);
          Err(e)
        case Ok(os) =>
          assert forall i :: 1 <= i < |stores| ==> stores[i] == stores[1..][i - 1];
          Ok([NewObject(stores[0].name, o)] + os)
  }

  /** `i` is the first child whose root cannot be examined. */
  predicate FirstFailure<S>(stores: seq<Store<S>>, st: S, i: int) {
    && 0 <= i < |stores|
    && stores[i].examine(st, "").Err?
    && forall j :: 0 <= j < i ==> stores[j].examine(st, "").Ok?
  }

  /** The listing of a non-root path: the routed child's directory, each
      entry prefixed with the child's name; a child error is wrapped. */
  function ListChild<S>(rs: RootStore<S>, st: S, path: string): (r: Result<seq<Object>, Error>)
    ensures !Routable(rs.stores, path) ==> r == Err(Sentinel(ObjectNotFound))
    ensures Routable(rs.stores, path) ==> var i := ChildOf(rs.stores, path);
      var c := rs.stores[i].listTree(st, Forwarded(path));
      && r.Ok? == c.Ok?
      && (c.Err? ==> r.error == Wrapped("can't list tree - " + Forwarded(path), c.error))
      && (c.Ok? ==> |r.value| == |c.value| && forall k :: 0 <= k < |c.value| ==> r.value[k] == RootObject(rs.stores[i].name, c.value[k]))
  {
    match Resolve(rs.stores, path)
    case Err(e) => Err(e)
    case Ok(Route(i, p)) =>
      match rs.stores[i].listTree(st, p)
      case Err(e) => Err(Wrapped("can't list tree - " + p, e))
      case Ok(objects) =>
        Ok(PrefixAll(rs.stores[i].name, objects))
  }

  /** Every object of a child's listing, prefixed with the child's name. */
  function PrefixAll(name: string, objects: seq<Object>): (r: seq<Object>)
    ensures |r| == |objects|
    ensures forall k :: 0 <= k < |objects| ==> r[k] == RootObject(name, objects[k])
  {
    seq(|objects|, k requires 0 <= k < |objects| => NewObject(name, objects[k]))
  }

  /** `ListTree`: only the exact empty path lists the children themselves
      (`listRoot`); every other path, even "/" or " ", is routed. */
  function ListTree<S>(rs: RootStore<S>, st: S, path: string): (r: Result<seq<Object>, Error>)
    ensures path == "" ==> (r.Ok? <==> forall i :: 0 <= i < |rs.stores| ==> rs.stores[i].examine(st, "").Ok?)
    ensures path == "" && r.Ok? ==> |r.value| == |rs.stores| && forall i :: 0 <= i < |rs.stores| ==>
      r.value[i] == RootObject(rs.stores[i].name, rs.stores[i].examine(st, "").value)
    ensures path == "" && r.Err? ==> exists i :: FirstFailure(rs.stores, st, i) && r.error == Wrapped("can't examine", rs.stores[i].examine(st, "").error)
    ensures path != "" ==> r == ListChild(rs, st, path)
  {
    if path == "" then ListRoot(rs.stores, st) else ListChild(rs, st, path)
  }

  /** Two paths that route to children of the same name route to the same
      child. */
  lemma SameNameSameChild<S>(stores: seq<Store<S>>, p: string, q: string, i: int, j: int)
    requires RoutesTo(stores, p, i) && RoutesTo(stores, q, j)
    ensures stores[i].name == stores[j].name <==> i == j
  {
  }

  /** `Rename`: source and destination are resolved in that order; paths on
      two different children are refused, otherwise the child renames. */
  function Rename<S>(rs: RootStore<S>, st: S, srcPath: string, destPath: string): (r: (Option<Error>, S))
    ensures !Routable(rs.stores, srcPath) ==> r == (Some(Sentinel(ObjectNotFound)), st)
    ensures Routable(rs.stores, srcPath) && !Routable(rs.stores, destPath) ==> r == (Some(Sentinel(ObjectNotFound)), st)
    ensures Routable(rs.stores, srcPath) && Routable(rs.stores, destPath) ==>
      var i, j := ChildOf(rs.stores, srcPath), ChildOf(rs.stores, destPath);
      r == if i != j then (Some(Sentinel(CantMove)), st)
           else rs.stores[i].rename(st, Forwarded(srcPath), Forwarded(destPath))
  {
    var src := Resolve(rs.stores, srcPath);
    if src.Err? then (Some(src.error), st)
    else
      var dest := Resolve(rs.stores, destPath);
      if dest.Err? then (Some(dest.error), st)
      else
        var i, sp := src.value.index, src.value.rest;
        var j, dp := dest.value.index, dest.value.rest;
        SameNameSameChild(rs.stores, srcPath, destPath, i, j);
        if rs.stores[i].name != rs.stores[j].name then (Some(Sentinel(CantMove)), st)
        else rs.stores[i].rename(st, sp, dp)
  }

  /** Requests that agree on the first two segments are indistinguishable:
      whatever follows the second segment never reaches a child. */
  lemma OnlyTwoSegmentsMatter<S>(rs: RootStore<S>, st: S, p: string, q: string, reader: Stream, inputHash: string)
    requires FirstSegment(p) == FirstSegment(q) && Forwarded(p) == Forwarded(q)
    ensures PutObject(rs, st, reader, p, inputHash) == PutObject(rs, st, reader, q, inputHash)
    ensures GetObject(rs, st, p) == GetObject(rs, st, q)
    ensures Examine(rs, st, p) == Examine(rs, st, q)
    ensures Remove(rs, st, p) == Remove(rs, st, q)
    ensures ListChild(rs, st, p) == ListChild(rs, st, q)
  {
    assert Resolve(rs.stores, p) == Resolve(rs.stores, q);
    SameRoutePut(rs, st, p, q, reader, inputHash);
    SameRouteGet(rs, st, p, q);
    SameRouteExamine(rs, st, p, q);
    SameRouteRemove(rs, st, p, q);
    SameRouteList(rs, st, p, q);
  }

  lemma SameRoutePut<S>(rs: RootStore<S>, st: S, p: string, q: string, reader: Stream, inputHash: string)
    requires Resolve(rs.stores, p) == Resolve(rs.stores, q)
    ensures PutObject(rs, st, reader, p, inputHash) == PutObject(rs, st, reader, q, inputHash)
  {
  }

  lemma SameRouteGet<S>(rs: RootStore<S>, st: S, p: string, q: string)
    requires Resolve(rs.stores, p) == Resolve(rs.stores, q)
    ensures GetObject(rs, st, p) == GetObject(rs, st, q)
  {
  }

  lemma SameRouteExamine<S>(rs: RootStore<S>, st: S, p: string, q: string)
    requires Resolve(rs.stores, p) == Resolve(rs.stores, q)
    ensures Examine(rs, st, p) == Examine(rs, st, q)
  {
  }

  lemma SameRouteRemove<S>(rs: RootStore<S>, st: S, p: string, q: string)
    requires Resolve(rs.stores, p) == Resolve(rs.stores, q)
    ensures Remove(rs, st, p) == Remove(rs, st, q)
  {
  }

  lemma SameRouteList<S>(rs: RootStore<S>, st: S, p: string, q: string)
    requires Resolve(rs.stores, p) == Resolve(rs.stores, q)
    ensures ListChild(rs, st, p) == ListChild(rs, st, q)
  {
  }

  /** A path without surrounding white space or slashes is its own
      normal form. */
  lemma NormalizeClean(path: string)
    requires path != [] && !IsSpace(path[0]) && !IsSpace(path[|path| - 1])
    requires path[0] != '/' && path[|path| - 1] != '/'
    ensures Normalize(path) == path
  {
    assert TrimSpace(path) == path;
  }

  /** A segment that survives normalisation untouched at either end of a
      path: not empty, no slash, no white space at its ends. */
  predicate CleanSegment(s: string) {
    s != [] && '/' !in s && !IsSpace(s[0]) && !IsSpace(s[|s| - 1])
  }

  /** "a/b" is routed by "a" and forwards "b". */
  lemma TwoSegments(a: string, b: string)
    requires CleanSegment(a) && CleanSegment(b)
    ensures FirstSegment(a + "/" + b) == a && Forwarded(a + "/" + b) == b
  {
    var segs := [a, b];
    assert segs[0] == a && segs[1] == b;
    TwoSegmentsNormalize(a, b);
    ForwardsSecondSegmentOnly(a + "/" + b, segs);
  }

  /** "a/b" normalises to itself, the segments `a` and `b` joined. */
  lemma TwoSegmentsNormalize(a: string, b: string)
    requires CleanSegment(a) && CleanSegment(b)
    ensures Normalize(a + "/" + b) == JoinWith([a, b], '/')
  {
    var path := a + "/" + b;
    assert path[0] == a[0] && path[|path| - 1] == b[|b| - 1];
    NormalizeClean(path);
    assert [a, b][1..] == [b];
  }

  /** "a/b/tail" is routed by "a" and forwards "b" alone. */
  lemma LongerPath(a: string, b: string, tail: string)
    requires CleanSegment(a) && CleanSegment(b)
    requires tail != [] && tail[|tail| - 1] != '/' && !IsSpace(tail[|tail| - 1])
    ensures FirstSegment(a + "/" + b + "/" + tail) == a && Forwarded(a + "/" + b + "/" + tail) == b
  {
    var path := a + "/" + b + "/" + tail;
    var rest := Split(tail, '/');
    var segs := [a, b] + rest;
    assert segs[0] == a && segs[1] == b;
    assert forall i :: 0 <= i < |segs| ==> '/' !in segs[i] by {
      assert forall i :: 2 <= i < |segs| ==> segs[i] == rest[i - 2];
    }
    LongerPathSegments(a, b, tail);
    ForwardsSecondSegmentOnly(path, segs);
  }

  /** "a/b/tail" normalises to itself, the segments `a`, `b` and those of
      `tail` joined by slashes. */
  lemma LongerPathSegments(a: string, b: string, tail: string)
    requires CleanSegment(a) && CleanSegment(b)
    requires tail != [] && tail[|tail| - 1] != '/' && !IsSpace(tail[|tail| - 1])
    ensures Normalize(a + "/" + b + "/" + tail) == JoinWith([a, b] + Split(tail, '/'), '/')
  {
    var path := a + "/" + b + "/" + tail;
    assert path[0] == a[0] && path[|path| - 1] == tail[|tail| - 1];
    NormalizeClean(path);
    JoinOfSplit(tail, '/');
    JoinTwoMore(a, b, Split(tail, '/'), '/');
  }

  /** Whatever follows the second segment is dropped: "a/b/tail" reaches
      the child named "a" as "b", exactly as "a/b" does. */
  lemma TailIsDropped<S>(rs: RootStore<S>, st: S, a: string, b: string, tail: string, reader: Stream, inputHash: string)
    requires CleanSegment(a) && CleanSegment(b)
    requires tail != [] && tail[|tail| - 1] != '/' && !IsSpace(tail[|tail| - 1])
    ensures var path := a + "/" + b + "/" + tail;
      && PutObject(rs, st, reader, path, inputHash) == PutObject(rs, st, reader, a + "/" + b, inputHash)
      && GetObject(rs, st, path) == GetObject(rs, st, a + "/" + b)
      && Examine(rs, st, path) == Examine(rs, st, a + "/" + b)
      && Remove(rs, st, path) == Remove(rs, st, a + "/" + b)
      && ListTree(rs, st, path) == ListTree(rs, st, a + "/" + b)
  {
    LongerPath(a, b, tail);
    TwoSegments(a, b);
    OnlyTwoSegmentsMatter(rs, st, a + "/" + b + "/" + tail, a + "/" + b, reader, inputHash);
  }

  /** Only the exact empty path lists the children: a path of nothing but
      white space, or of nothing but slashes, names the segment "", and is
      refused when no child is called that. */
  lemma RootListingNeedsEmptyPath<S>(rs: RootStore<S>, st: S, path: string)
    requires path != []
    requires (forall k :: 0 <= k < |path| ==> IsSpace(path[k])) || (forall k :: 0 <= k < |path| ==> path[k] == '/')
    requires forall i :: 0 <= i < |rs.stores| ==> rs.stores[i].name != ""
    ensures ListTree(rs, st, path) == Err(Sentinel(ObjectNotFound))
  {
    BlankPathIsEmptySegment(path);
  }

  /** White space is trimmed before slashes: white space just inside a pair
      of surrounding slashes survives normalisation, and only the slashes
      go. */
  lemma SpaceInsideSlashesSurvives(s: string)
    requires s != [] && s[0] != '/' && s[|s| - 1] != '/'
    ensures Normalize("/" + s + "/") == s
  {
    var path := "/" + s + "/";
    assert TrimSpace(path) == path;
    assert path[1] == s[0] && path[|path| - 2] == s[|s| - 1];
    assert LeadingDrop(path, IsSlash) == 1;
    assert TrailingDrop(path, IsSlash) == 1;
    TrimBothIsMiddle(path, IsSlash);
    assert path[1..|path| - 1] == s;
  }

  /** A path of nothing but white space, or of nothing but slashes, names
      the segment "". */
  lemma BlankPathIsEmptySegment(path: string)
    requires (forall k :: 0 <= k < |path| ==> IsSpace(path[k])) || (forall k :: 0 <= k < |path| ==> path[k] == '/')
    ensures FirstSegment(path) == ""
  {
    if forall k :: 0 <= k < |path| ==> path[k] == '/' {
      assert TrimSpace(path) == path;
      assert forall k :: 0 <= k < |path| ==> IsSlash(path[k]);
    }
    assert Normalize(path) == [];
    assert IndexOf([], '/') == None;
  }

  /** A rename between paths whose first segments differ is refused once
      both resolve, and the children's state is left as it was: the two
      paths reach children of different names. */
  lemma CrossChildRenameRefused<S>(rs: RootStore<S>, st: S, srcPath: string, destPath: string)
    requires Routable(rs.stores, srcPath) && Routable(rs.stores, destPath)
    requires FirstSegment(srcPath) != FirstSegment(destPath)
    ensures Rename(rs, st, srcPath, destPath) == (Some(Sentinel(CantMove)), st)
  {
    var i, j := ChildOf(rs.stores, srcPath), ChildOf(rs.stores, destPath);
    assert rs.stores[i].name != rs.stores[j].name;
  }

  /** A routed `Examine` is the child's `Examine` of the forwarded path: the
      same success or failure, the same metadata, the same error underneath
      the wrapping, and a path with the child's name joined in front. */
  lemma ExamineMatchesChild<S>(rs: RootStore<S>, st: S, path: string, join: (string, string) -> string, typeByExtension: string -> string)
    requires Routable(rs.stores, path)
    ensures var i := ChildOf(rs.stores, path);
      var c := rs.stores[i].examine(st, Forwarded(path));
      var r := Examine(rs, st, path);
      && r.Ok? == c.Ok?
      && (r.Err? ==> Cause(r.error) == Cause(c.error))
      && (r.Ok? ==>
        && r.value.Path(join) == join(rs.stores[i].name, c.value.Path(join))
        && r.value.ID() == c.value.ID() && r.value.Checksum() == c.value.Checksum()
        && r.value.IsDir() == c.value.IsDir() && r.value.ModTime() == c.value.ModTime()
        && r.value.Size() == c.value.Size() && r.value.Optional() == c.value.Optional()
        && r.value.MimeType(typeByExtension) == c.value.MimeType(typeByExtension))
  {
    var i := ChildOf(rs.stores, path);
    var c := rs.stores[i].examine(st, Forwarded(path));
    if c.Ok? {
      DecoratorForwards(rs.stores[i].name, c.value, join, typeByExtension);
    }
  }

  /** A failed child listing keeps its cause under the wrapping. */
  lemma ListErrorKeepsCause<S>(rs: RootStore<S>, st: S, path: string)
    requires path != "" && Routable(rs.stores, path)
    requires rs.stores[ChildOf(rs.stores, path)].listTree(st, Forwarded(path)).Err?
    ensures ListTree(rs, st, path).Err?
    ensures Cause(ListTree(rs, st, path).error) == Cause(rs.stores[ChildOf(rs.stores, path)].listTree(st, Forwarded(path)).error)
  {
  }

  /** The composite is itself a store, so composites nest. */
  function AsStore<S(!new)>(rs: RootStore<S>): (s: Store<S>)
    ensures s.name == rs.name && s.root == rs.root
    ensures forall st, reader, p, h :: s.putObject(st, reader, p, h) == PutObject(rs, st, reader, p, h)
    ensures forall st, p :: s.getObject(st, p) == GetObject(rs, st, p)
    ensures forall st, p :: s.examine(st, p) == Examine(rs, st, p)
    ensures forall st, p :: s.listTree(st, p) == ListTree(rs, st, p)
    ensures forall st, p :: s.remove(st, p) == Remove(rs, st, p)
    ensures forall st, p, q :: s.rename(st, p, q) == Rename(rs, st, p, q)
  {
    Store(rs.name, rs.root,
      (st, reader, p, h) => PutObject(rs, st, reader, p, h),
      (st, p) => GetObject(rs, st, p),
      (st, p) => Examine(rs, st, p),
      (st, p) => ListTree(rs, st, p),
      (st, p) => Remove(rs, st, p),
      (st, p, q) => Rename(rs, st, p, q))
  }
}

=== FILE: strings.dfy ===
/** The parts of Go's `strings`, `path` and `path/filepath` packages that the
    stores rely on, written out over `seq<char>` (one char per rune). */
module Strings {
  import opened Results

  /** Go's `unicode.IsSpace`: the runes with the Unicode White_Space property. */
  predicate IsSpace(c: char) {
    var n := c as int;
    || n == 0x20 || (0x09 <= n <= 0x0D) || n == 0x85 || n == 0xA0
    || n == 0x1680 || (0x2000 <= n <= 0x200A) || n == 0x2028 || n == 0x2029
    || n == 0x202F || n == 0x205F || n == 0x3000
  }

  /** The length of the longest prefix of `s` whose runes all satisfy `drop`. */
  function LeadingDrop(s: string, drop: char -> bool): (n: nat)
    ensures n <= |s|
    ensures forall i :: 0 <= i < n ==> drop(s[i])
    ensures n == |s| || !drop(s[n])
    decreases |s|
  {
    if s == [] || !drop(s[0]) then 0 else 1 + LeadingDrop(s[1..], drop)
  }

  /** The length of the longest suffix of `s` whose runes all satisfy `drop`. */
  function TrailingDrop(s: string, drop: char -> bool): (n: nat)
    ensures n <= |s|
    ensures forall i :: |s| - n <= i < |s| ==> drop(s[i])
    ensures n == |s| || !drop(s[|s| - 1 - n])
    decreases |s|
  {
    if s == [] || !drop(s[|s| - 1]) then 0 else 1 + TrailingDrop(s[..|s| - 1], drop)
  }

  /** Removes droppable runes from both ends: the shape shared by
      `strings.TrimSpace` and `strings.Trim`. */
  function TrimBoth(s: string, drop: char -> bool): (r: string)
    ensures |r| <= |s|
    ensures r == [] || (!drop(r[0]) && !drop(r[|r| - 1]))
    ensures r == [] <==> forall i :: 0 <= i < |s| ==> drop(s[i])
    ensures (s == [] || (!drop(s[0]) && !drop(s[|s| - 1]))) ==> r == s
  {
    var l := LeadingDrop(s, drop);
    if l == |s| then []
    else
      var t := TrailingDrop(s, drop);
      assert l < |s| - t;
      s[l..|s| - t]
  }

  /** Trimming removes exactly the longest droppable prefix and the longest
      droppable suffix: what is left is the middle of `s`. */
  lemma TrimBothIsMiddle(s: string, drop: char -> bool)
    ensures var r, l, t := TrimBoth(s, drop), LeadingDrop(s, drop), TrailingDrop(s, drop);
      r == [] || (l + |r| + t == |s| && r == s[l..l + |r|])
  {
  }

  /** `strings.TrimSpace`: strips leading and trailing white space. */
  function TrimSpace(s: string): string {
    TrimBoth(s, IsSpace)
  }

  predicate IsSlash(c: char) {
    c == '/'
  }

  /** `strings.Trim(s, "/")`: strips every leading and trailing slash. */
  function TrimSlashes(s: string): string {
    TrimBoth(s, IsSlash)
  }

  /** The position of the first `c` in `s`, if there is one. */
  function IndexOf(s: string, c: char): (r: Option<nat>)
    ensures r.None? <==> c !in s
    ensures r.Some? ==> r.value < |s| && s[r.value] == c
    ensures r.Some? ==> forall j :: 0 <= j < r.value ==> s[j] != c
  {
    if s == [] then None
    else if s[0] == c then Some(0)
    else match IndexOf(s[1..], c)
      case None => None
      case Some(k) => Some(k + 1)
  }

  /** `strings.Split(s, string([sep]))`: the pieces of `s` between the
      separators; never empty, since an empty `s` yields `[""]`. */
  function Split(s: string, sep: char): (r: seq<string>)
    ensures |r| >= 1
    ensures forall i :: 0 <= i < |r| ==> sep !in r[i]
    decreases |s|
  {
    match IndexOf(s, sep)
    case None => [s]
    case Some(k) => [s[..k]] + Split(s[k + 1..], sep)
  }

  /** `strings.Join(parts, string([sep]))`, the inverse of `Split`. */
  function JoinWith(parts: seq<string>, sep: char): string
    requires |parts| >= 1
  {
    if |parts| == 1 then parts[0] else parts[0] + [sep] + JoinWith(parts[1..], sep)
  }

  /** Joining a part in front of at least one more. */
  lemma JoinCons(x: string, rest: seq<string>, sep: char)
    requires |rest| >= 1
    ensures JoinWith([x] + rest, sep) == x + [sep] + JoinWith(rest, sep)
  {
    assert ([x] + rest)[1..] == rest;
  }

  /** Joining two parts in front of at least one more. */
  lemma JoinTwoMore(a: string, b: string, rest: seq<string>, sep: char)
    requires |rest| >= 1
    ensures JoinWith([a, b] + rest, sep) == a + [sep] + b + [sep] + JoinWith(rest, sep)
  {
    var j := JoinWith(rest, sep);
    JoinCons(b, rest, sep);
    JoinCons(a, [b] + rest, sep);
    assert [a] + ([b] + rest) == [a, b] + rest;
    assert a + [sep] + (b + [sep] + j) == a + [sep] + b + [sep] + j;
  }

  /** Joining the pieces of a split gives back the original string. */
  lemma {:induction false} JoinOfSplit(s: string, sep: char)
    ensures JoinWith(Split(s, sep), sep) == s
    decreases |s|
  {
    var i := IndexOf(s, sep);
    if i.Some? {
      var k := i.value;
      var rest := s[k + 1..];
      var parts := Split(s, sep);
      assert parts == [s[..k]] + Split(rest, sep);
      assert |parts| > 1 && parts[1..] == Split(rest, sep);
      JoinOfSplit(rest, sep);
      assert JoinWith(parts, sep) == s[..k] + [sep] + rest;
      assert s == s[..k] + [sep] + rest;
    }
  }

  /** Splitting a join of separator-free pieces gives back the pieces. */
  lemma {:induction false} SplitOfJoin(parts: seq<string>, sep: char)
    requires |parts| >= 1
    requires forall i :: 0 <= i < |parts| ==> sep !in parts[i]
    ensures Split(JoinWith(parts, sep), sep) == parts
  {
    var s := JoinWith(parts, sep);
    if |parts| == 1 {
      assert IndexOf(s, sep).None?;
    } else {
      var rest := JoinWith(parts[1..], sep);
      assert s == parts[0] + [sep] + rest;
      assert s[|parts[0]|] == sep;
      assert s[..|parts[0]|] == parts[0];
      var k := IndexOf(s, sep);
      assert k == Some(|parts[0]|);
      assert s[|parts[0]| + 1..] == rest;
      SplitOfJoin(parts[1..], sep);
    }
  }

  /** Go's `path.Ext`: the suffix starting at the final dot of the final
      slash-separated element, or "" when that element has no dot. */
  function Ext(p: string): (r: string)
    ensures |r| <= |p| && r == p[|p| - |r|..]
    ensures r == [] || (r[0] == '.' && '.' !in r[1..])
    ensures '/' !in r
    ensures r == [] <==> forall i :: 0 <= i < |p| && (forall j :: i < j < |p| ==> p[j] != '/') ==> p[i] != '.'
    decreases |p|
  {
    if p == [] || p[|p| - 1] == '/' then []
    else if p[|p| - 1] == '.' then "."
    else
      var e := Ext(p[..|p| - 1]);
      if e == [] then [] else e + [p[|p| - 1]]
  }

  /** The position just after the last `/` of `s` (0 when there is none). */
  function AfterLastSlash(s: string): (r: nat)
    ensures r <= |s|
    ensures '/' !in s[r..]
    ensures r > 0 ==> s[r - 1] == '/'
    decreases |s|
  {
    if s == [] then 0
    else if s[|s| - 1] == '/' then |s|
    else AfterLastSlash(s[..|s| - 1])
  }

  /** Go's `filepath.Base` on a Unix system: the last element of the path,
      "." for the empty path and "/" for a path made only of slashes. */
  function Base(p: string): (r: string)
    ensures r != []
    ensures r == "/" || '/' !in r
  {
    if p == [] then "."
    else
      var t := p[..|p| - TrailingDrop(p, IsSlash)];
      if t == [] then "/" else t[AfterLastSlash(t)..]
  }

  /** `filepath.Base` returns the last element: once trailing slashes are
      dropped, the part after the last remaining slash. */
  lemma BaseIsLastElement(p: string)
    ensures p == [] ==> Base(p) == "."
    ensures p != [] && (forall i :: 0 <= i < |p| ==> p[i] == '/') ==> Base(p) == "/"
    ensures var t := p[..|p| - TrailingDrop(p, IsSlash)]; var r := Base(p);
      t != [] ==>
        && |r| <= |t| && r == t[|t| - |r|..] && '/' !in r
        && (|r| == |t| || t[|t| - |r| - 1] == '/')
  {
  }

  /** A directory entry's name has no separator, so `filepath.Base` keeps it. */
  lemma BaseOfName(name: string)
    requires name != [] && '/' !in name
    ensures Base(name) == name
  {
    assert name[|name| - 1] in name;
    assert TrailingDrop(name, IsSlash) == 0;
  }
}
